=== FILE: README.md ===
# Image Camera Manager: navigation, listing and rename logic

The Image Camera Manager is a small WPF desktop application. It shows a webcam
picture, lets the user browse folders and saves snapshots into the folder on
display. The folder listing shows sub-folders and images, with folders first.
Double-clicking an image opens a popup where the image can be renamed.

This project models the logic behind those event handlers as immutable state
and pure functions, and proves what the handlers promise.

- `History` (history.dfy): the two navigation stacks of the main window.
  - `_folderHistory` is the back stack. Its top is the folder on display.
  - `_forwardHistory` is the forward stack.
  - Navigation, Back and Forward act on the stacks. They are checked against an
    independent browser-style reference model: a list of visited folders with a
    cursor.
- `MainWindow` (mainwindow.dfy): the window state and its handlers.
  - The state is the stacks, the path text box, the folder whose listing is shown
    and the enablement of the three buttons.
  - The handlers are Browse, Back, Forward, double-click on a listed item and take
    picture. Dialog answers, the captured frame and the clock are inputs.
  - Sequences of user events are replayed and related back to the history model.
- `Listing` (listing.dfy): `GetFileType`, `IsImageFile`, `CreateFileInfo` and
  `UpdateFileList`.
  - Entries are classified as folder, image or file.
  - Plain files are dropped.
  - Folders are put before images by a stable sort.
  - `ListingExample` (listing_example.dfy) works through one concrete folder.
- `Snapshot` (snapshot.dfy): the snapshot file name
  `selfie_yyyyMMddHHmmss.png`, with the zero-padded number formatting it uses.
  The model also has a parser for these names, and the two are proved to be
  inverses.
- `ImagePopup` (imagepopup.dfy): the popup on an image.
  - Loading shows the file name without its extension.
  - Submitting renames the file within its folder and has the main window list the
    folder again.
- `Paths` and `Text` (paths.dfy, text.dfy): the library behaviour the handlers
  rely on.
  - From `Path`: `GetFileName`, `GetDirectoryName`, `Combine`, `GetExtension` and
    `GetFileNameWithoutExtension`.
  - From strings: `Trim`, `IsNullOrWhiteSpace` and case-insensitive comparison.
  - `File.Move` on a file system given as a set of file paths and a set of
    directory paths.

A stack is a sequence whose top is its last element. A path is a string whose
final segment follows its last `\`.

## Model

| member | source | states |
|---|---|---|
| History.NavigateTo | ImageCameraManager/MainWindow.xaml.cs:76-77 | Opening a folder makes it the current folder, keeps the old back stack beneath it and empties the forward stack. |
| History.Back | ImageCameraManager/MainWindow.xaml.cs:112-118 | With at most one folder on the back stack nothing changes. Otherwise the old top moves onto the forward stack, and the folder second from the top becomes the current one. |
| History.Forward | ImageCameraManager/MainWindow.xaml.cs:96-100 | With an empty forward stack nothing changes. Otherwise the forward top moves onto the back stack and becomes the current folder. |
| History.BackThenForward | ImageCameraManager/MainWindow.xaml.cs:96-122 | A successful Back followed by Forward restores both stacks exactly. |
| History.ForwardThenBack | ImageCameraManager/MainWindow.xaml.cs:96-122 | A successful Forward followed by Back restores both stacks, once a folder is shown. |
| History.TraversalKeepsFolders | ImageCameraManager/MainWindow.xaml.cs:96-122 | Back and Forward only move folders between the two stacks: together the stacks hold the same multiset of folders. |
| History.RunKeepsAFolderShown | ImageCameraManager/MainWindow.xaml.cs:71-122 | Once the back stack is non-empty, no sequence of navigations, Backs and Forwards empties it. |
| History.BackAndForwardBetweenTwoFolders | ImageCameraManager/MainWindow.xaml.cs:71-122 | After opening A and then B, Back shows A, and a following Forward shows B again. |
| History.RepresentationsCorrespond | ImageCameraManager/MainWindow.xaml.cs:16-17 | The two stacks and the visited-list-with-cursor reference model are in one-to-one correspondence. |
| History.NavigateImplementsTimeline | ImageCameraManager/MainWindow.xaml.cs:76-77 | Opening a folder acts on the reference model like a browser: it drops the folders after the cursor and appends the new one. |
| History.BackImplementsTimeline | ImageCameraManager/MainWindow.xaml.cs:114-118 | Back moves the reference model's cursor one folder earlier, when there is an earlier folder. |
| History.ForwardImplementsTimeline | ImageCameraManager/MainWindow.xaml.cs:98-100 | Forward moves the reference model's cursor one folder later, when there is a later folder. |
| History.RunImplementsTimeline | ImageCameraManager/MainWindow.xaml.cs:71-122 | After any sequence of actions, the stacks stand for the reference model's state after the same actions, so both show the same folder. |
| MainWindow.PathText | ImageCameraManager/MainWindow.xaml.cs:92-95 | The path box shows the path unless it is empty or only white space, in which case it shows "Invalid Path". The text is never empty. |
| MainWindow.UpdateButtonStates | ImageCameraManager/MainWindow.xaml.cs:106-111 | Take-picture is enabled iff the path text is non-empty. Back is enabled iff the back stack holds more than one folder. Forward is enabled iff the forward stack is non-empty. |
| MainWindow.Opened | ImageCameraManager/MainWindow.xaml.cs:21-24 | A new window has empty stacks, no listing, and Back and Forward disabled. |
| MainWindow.ShowFolder | ImageCameraManager/MainWindow.xaml.cs:100-103 | Showing the new current folder keeps the stacks, lists that folder and writes it to the path box. The buttons end up in step with the stacks, with take-picture enabled. |
| MainWindow.Browse | ImageCameraManager/MainWindow.xaml.cs:71-90 | The path box always takes the dialog's path. A cancelled dialog or an empty path changes neither stack nor the listing. A confirmed non-empty path is pushed, the forward stack is emptied, and the folder is listed. |
| MainWindow.ForwardClick | ImageCameraManager/MainWindow.xaml.cs:96-104 | Forward is ignored with an empty forward stack. Otherwise the stacks move as `History.Forward` and the new current folder is listed and written to the path box. |
| MainWindow.BackClick | ImageCameraManager/MainWindow.xaml.cs:112-122 | Back is ignored with at most one folder. Otherwise the stacks move as `History.Back` and the folder second from the top is listed and written to the path box. |
| MainWindow.DoubleClick | ImageCameraManager/MainWindow.xaml.cs:167-188 | A popup opens exactly when an image is selected. A folder is navigated to: it is pushed, the forward stack is emptied, and the folder is listed and written to the path box. No selection, or a plain file, changes nothing. |
| MainWindow.BrowseIsDoubleClickOnFolder | ImageCameraManager/MainWindow.xaml.cs:172-180 | Double-clicking a folder has the same effect on the window as confirming that folder in the Browse dialog (lines 73-80). |
| MainWindow.HandleRunsAction | ImageCameraManager/MainWindow.xaml.cs:71-180 | Each handler moves the stacks exactly as the history action of its event: a navigation, Back, Forward or nothing. |
| MainWindow.ReplayRunsActions | ImageCameraManager/MainWindow.xaml.cs:71-180 | Over any sequence of user events, the stacks evolve as the history model runs the navigation actions among them. |
| MainWindow.HandleKeepsCoherent | ImageCameraManager/MainWindow.xaml.cs:106-111 | Every handler keeps the Back and Forward buttons and the listing in step with the stacks. |
| MainWindow.ReplayKeepsCoherent | ImageCameraManager/MainWindow.xaml.cs:106-111 | Any sequence of events keeps the buttons and the listing in step with the stacks. |
| MainWindow.OpenedIsCoherent | ImageCameraManager/MainWindow.xaml.cs:21-24 | The new window is in step, so every reachable window is. |
| MainWindow.TakePicture | ImageCameraManager/MainWindow.xaml.cs:53-69 | Without a frame nothing is saved. Otherwise, with an empty back stack, `Peek` crashes. Otherwise the files gain exactly the path named by `SnapshotName` in the current folder, directories are unchanged, and that folder is listed. |
| MainWindow.SnapshotPath | ImageCameraManager/MainWindow.xaml.cs:58-60 | The saved path's final segment is the snapshot name, and its parent is the current folder whenever that folder is non-empty. |
| MainWindow.SnapshotNameIsAFileName | ImageCameraManager/MainWindow.xaml.cs:59-60 | The snapshot name holds no separator, so it is the final segment of the saved path. |
| MainWindow.SnapshotIsListedAsImage | ImageCameraManager/MainWindow.xaml.cs:58-63 | A saved snapshot is classified as an image, so the refreshed listing shows it. |
| MainWindow.NoSnapshotCrashAfterFirstFolder | ImageCameraManager/MainWindow.xaml.cs:58 | Once a folder has been shown, no sequence of events makes taking a picture crash on the empty history. |
| MainWindow.SnapshotCrashesBeforeFirstFolder | ImageCameraManager/MainWindow.xaml.cs:53-58 | In a new window the take-picture button is enabled iff the initial path text is non-empty. Taking a picture there crashes on the empty history. |
| Listing.IsImageFileIsCaseInsensitiveContains | ImageCameraManager/MainWindow.xaml.cs:135-139 | An extension is an image extension iff it equals one of `.jpg .jpeg .png .gif .bmp` under ordinal case-insensitive comparison. |
| Listing.GetFileType | ImageCameraManager/MainWindow.xaml.cs:150-166 | A directory is a folder. A non-directory is an image iff its extension is one of the image extensions, ignoring case, and a plain file otherwise. |
| Listing.CreateFileInfo | ImageCameraManager/MainWindow.xaml.cs:140-149 | A row keeps the entry's path and is named by the path's final segment. Its kind is `GetFileType`'s verdict on the entry, so it is a folder exactly when the entry is a directory, and otherwise an image or a plain file by extension. |
| Listing.ImageIffImageSuffix | ImageCameraManager/MainWindow.xaml.cs:150-166 | An entry is an image iff it is not a directory and its path ends, ignoring case, in one of the image extensions. |
| Listing.ImageExtensionsAreLowerCase | ImageCameraManager/MainWindow.xaml.cs:137 | Every image extension is a dot followed by lower-case letters, so lower-casing leaves it unchanged. |
| Listing.Infos | ImageCameraManager/MainWindow.xaml.cs:128-129 | There is one row per entry, in enumeration order. |
| Listing.UpdateFileList | ImageCameraManager/MainWindow.xaml.cs:124-134 | The listing has no plain files, and all its folders come before all its images. Within each kind it keeps the enumeration order. It is a permutation of the kept rows. |
| Listing.PartitionByKind | ImageCameraManager/MainWindow.xaml.cs:129-131 | One pass collects exactly the folders and exactly the images, each in enumeration order. |
| Listing.KeptIsFoldersAndImages | ImageCameraManager/MainWindow.xaml.cs:130 | The rows the filter keeps are the folders and the images, counted with multiplicity. |
| Listing.PartitionIsListing | ImageCameraManager/MainWindow.xaml.cs:129-131 | The folders followed by the images satisfy every requirement on the listing. |
| Listing.ListingIsUnique | ImageCameraManager/MainWindow.xaml.cs:128-131 | Only one sequence meets the listing requirements: the folders followed by the images, each in enumeration order. |
| Listing.PngIsImage | ImageCameraManager/MainWindow.xaml.cs:150-160 | Any non-directory path ending in `.png` is classified as an image, because its lower-cased extension is one of the image extensions. |
| ListingExample.ListingExample | ImageCameraManager/MainWindow.xaml.cs:124-134 | A folder enumerating `b.txt`, `a.png` and `sub` is listed as `sub`, then `a.png`. |
| Snapshot.Padded | ImageCameraManager/MainWindow.xaml.cs:59 | A number below 10^width prints as exactly `width` decimal digits. |
| Snapshot.DigitsValueOfPadded | ImageCameraManager/MainWindow.xaml.cs:59 | The padded digits spell the number they were made from. |
| Snapshot.PaddedOfDigitsValue | ImageCameraManager/MainWindow.xaml.cs:59 | Padding is the only way to spell a value in a given number of digits. |
| Snapshot.Stamp | ImageCameraManager/MainWindow.xaml.cs:59 | The `yyyyMMddHHmmss` stamp of a valid time is exactly fourteen digits. |
| Snapshot.SnapshotName | ImageCameraManager/MainWindow.xaml.cs:59 | The name is 25 characters: `selfie_`, fourteen digits and `.png`. |
| Snapshot.ParseSnapshotNameInvertsName | ImageCameraManager/MainWindow.xaml.cs:59 | Every capture time is read back from its snapshot name. |
| Snapshot.SnapshotNameInvertsParse | ImageCameraManager/MainWindow.xaml.cs:59 | A name that reads as a capture time is that capture's name, so distinct times give distinct names. |
| Text.Trim | ImageCameraManager/ImagePopupForm.xaml.cs:96 | The result is an infix of the text with only white space cut from both ends. It neither starts nor ends in white space, and it is empty iff the text is all white space. |
| Text.TrimIdempotent | ImageCameraManager/ImagePopupForm.xaml.cs:96 | Trimming twice is trimming once. |
| Text.EqualsIgnoreCaseIsLowerEqual | ImageCameraManager/MainWindow.xaml.cs:138 | Character-wise case-insensitive equality is equality after lower-casing. |
| Text.ContainsIgnoreCaseIff | ImageCameraManager/MainWindow.xaml.cs:138 | A case-insensitive `Contains` holds iff some candidate equals the value, ignoring case. |
| Paths.FileName | ImageCameraManager/MainWindow.xaml.cs:145 | The file name is the separator-free suffix of the path that follows its last separator, or the whole path when it has none. |
| Paths.DirectoryName | ImageCameraManager/ImagePopupForm.xaml.cs:104 | The result is null for a null or empty path and empty for a path without a separator. A non-empty parent combined with the file name gives back the path. |
| Text.Lower | ImageCameraManager/MainWindow.xaml.cs:152 | `ToLower` keeps the length, turns each ASCII upper-case letter into its lower-case letter, and keeps every other character. |
| Paths.Extension | ImageCameraManager/MainWindow.xaml.cs:152 | `GetExtension` is empty, or a `.` followed by at least one character with no further `.`. |
| Paths.Stem | ImageCameraManager/ImagePopupForm.xaml.cs:55-58 | `GetFileNameWithoutExtension` is a prefix of the file name, and strictly shorter than it when the file name holds a `.`. |
| Paths.Combine | ImageCameraManager/ImagePopupForm.xaml.cs:113 | Combining with an empty directory gives the name. Otherwise the result is the directory, then one separator, then the name. |
| Paths.CombineSplits | ImageCameraManager/ImagePopupForm.xaml.cs:104-113 | Combining a non-empty directory with a separator-free name yields a path whose parent is that directory and whose file name is that name. |
| Paths.StemAndExtension | ImageCameraManager/ImagePopupForm.xaml.cs:55-58 | The name without its extension, followed by the extension, is the file name. The exception is a name ending in `.`: its extension is empty and the stem drops the dot. |
| Paths.ExtensionIsSuffix | ImageCameraManager/MainWindow.xaml.cs:152 | The extension ends the path. |
| Paths.ExtensionOfSuffix | ImageCameraManager/MainWindow.xaml.cs:152 | A separator-free suffix that starts with its only dot, with at least one character after it, is the extension of any path it ends. |
| Paths.Move | ImageCameraManager/ImagePopupForm.xaml.cs:119 | A move succeeds iff there is no I/O fault and the target is neither a directory nor another file. On success the target exists, the source is gone unless it is the target, and every other path is unchanged. |
| ImagePopup.SelectedPath | ImageCameraManager/ImagePopupForm.xaml.cs:29 | The selected path exists exactly when an item is selected, and it is that item's path. |
| ImagePopup.LoadImage | ImageCameraManager/ImagePopupForm.xaml.cs:25-58 | No selection or an empty path is reported, and neither a name nor an image is set. Otherwise the name box holds the file name without its extension, and the image is shown unless loading fails, which is reported. |
| ImagePopup.ShownNameOfImage | ImageCameraManager/ImagePopupForm.xaml.cs:37-39 | For an image the popup strips a non-empty extension, and the shown name followed by that extension is the file name. |
| ImagePopup.Parent | ImageCameraManager/ImagePopupForm.xaml.cs:104-110 | A parent exists only for a non-empty path with a non-empty directory part. Combined with the file name it gives back the path. |
| ImagePopup.ParentOfCombine | ImageCameraManager/ImagePopupForm.xaml.cs:104-110 | A path built from a non-empty folder and a separator-free name has that folder as its parent, so the rename goes ahead. |
| ImagePopup.RenameTo | ImageCameraManager/ImagePopupForm.xaml.cs:96-133 | An empty name does nothing. A missing parent is reported with no move and no refresh. With a parent, a missing source file is always reported, with no move but a refresh. For an existing source the move happens exactly when `File.Move` can succeed. Then the source is replaced by the sibling target, no error is reported and the parent is refreshed. Otherwise the move error is reported, nothing changes and nothing is refreshed. |
| ImagePopup.RenameSelectedItem | ImageCameraManager/ImagePopupForm.xaml.cs:94-99 | Text that is empty after trimming does nothing at all. A path without a parent is reported without any change. |
| ImagePopup.RenameTargetIsSibling | ImageCameraManager/ImagePopupForm.xaml.cs:104-113 | The target lies in the source's folder, and its final segment is exactly the trimmed text, with no extension added back. |
| ImagePopup.RenameFrame | ImageCameraManager/ImagePopupForm.xaml.cs:116-120 | A rename leaves every path other than the source and the target as it was, and never changes directories. |
| ImagePopup.RenameMovesSelectedFile | ImageCameraManager/ImagePopupForm.xaml.cs:116-127 | When the source exists and the target is free, exactly the source is replaced by the target, no error is reported, and the parent is refreshed. |
| ImagePopup.UnchangedNameDropsExtension | ImageCameraManager/ImagePopupForm.xaml.cs:96-119 | Submitting `a.png` with the name the popup shows renames it to `a`, which is a plain file and leaves the listing. |
| ImagePopup.StrippedSuffix | ImageCameraManager/ImagePopupForm.xaml.cs:37 | The part the popup hides is what follows the shown name in the file name. |
| ImagePopup.RenameKeepingExtension | ImageCameraManager/ImagePopupForm.xaml.cs:94-133 | Corrected rename: all-white-space text does nothing, and a path without a parent is reported without any change. |
| ImagePopup.UnchangedNameRenamesNothing | ImageCameraManager/ImagePopupForm.xaml.cs:94-133 | With the corrected rename, submitting the shown name leaves the file system unchanged. |
| ImagePopup.RenameToSelf | ImageCameraManager/ImagePopupForm.xaml.cs:113-119 | Renaming a file to the path it already has leaves the file system unchanged, whether or not the file exists and whether or not the move fails. |
| ImagePopup.RenameKeepsKind | ImageCameraManager/ImagePopupForm.xaml.cs:113 | With the corrected rename, the target keeps the source's extension and classification, so an image stays listed. |
| ImagePopup.AfterRename | ImageCameraManager/ImagePopupForm.xaml.cs:127 | Closing the popup re-lists the refreshed folder, if any, and leaves the stacks, the path box and the buttons alone. |
| ImagePopup.RenameRefreshesCurrentFolder | ImageCameraManager/ImagePopupForm.xaml.cs:127 | Renaming an item of the current folder re-lists that folder, so the window stays in step, with either rename. |

## Left out

- Camera capture (AForge devices, the frame callback, start and stop): a concurrent foreign library. Whether a frame has been captured is an input.
- The WPF and WinForms user interface: message boxes, the folder dialog, list view binding and file icons. Message boxes become error values, and the dialog's answer is an input.
- Bitmap cloning, saving and loading: image encoding is out of scope. A failed image load is the input `loadFails`.
- `Task.Run` in the popup's submit handler and the cross-thread UI access it causes: concurrency, not logic. The rename is modelled as one step.
- `FileSystemWatcher` (only disposed) and `OpenFile` (never called): no behaviour to model.
- `Directory.GetFileSystemEntries` and `File.GetAttributes` become a list of raw entries, each a path and a directory flag. `DateTime.Now` becomes a parameter.
- The full .NET path semantics: rooted paths, the `/` alternate separator, trailing separators, invalid path characters, and `GetDirectoryName` of `C:\a` being `C:\`. Paths use `\` as the only separator.
- Case-insensitive file systems: paths are compared exactly.
- Culture-sensitive `ToLower` and ordinal case folding outside ASCII: only `A`-`Z` are folded.
- Exceptions other than the `IOException` of `File.Move`. This includes `ArgumentException` for invalid names, errors while saving the snapshot, and errors while enumerating a directory. The take-picture handler has no `catch`, so a failed save would crash it as well.
- MainWindow.TakePicture: the saved file's content and the message box are not modelled, only the new path and the refreshed listing.
- ImagePopup.RenameTargetIsSibling: stated only for trimmed text without a separator. Text with a `\` makes `Path.Combine` build a path in a sub-folder, which the model's `Combine` represents but no lemma describes.
- Snapshot.Stamp: assumes the Gregorian calendar. The source formats `DateTime.Now` with the current culture, whose calendar decides the year, month and day (a Thai Buddhist calendar prints 2567 for 2024).
- Paths.Stem: its contract states only that it is a prefix of the file name. That it is the file name without its extension is stated separately by `Paths.StemAndExtension`.
- Paths.Extension: its contract states only the shape of an extension. That it ends the path is stated separately by `Paths.ExtensionIsSuffix`.

## Findings

| source | as written | input that shows it | evidently intended | confidence | as-written member | corrected member |
|---|---|---|---|---|---|---|
| ImageCameraManager/ImagePopupForm.xaml.cs:37-39 and 96-119 | The popup shows the file name without its extension. Submit uses the trimmed text as the whole new file name, so the extension is lost. | Double-click `a.png`, then submit without editing. When `RenameSelectedItem` runs as one synchronous step, the file is renamed to `a`, which is a plain file and disappears from the listing. As shipped, the handler's `Task.Run` makes the read of the text box throw first. | The new name keeps the extension the popup hid, so submitting the shown name changes nothing and an image stays an image. | not executed | ImagePopup.UnchangedNameDropsExtension | ImagePopup.RenameKeepingExtension |

=== FILE: history.dfy ===
/**
 The folder navigation history of the main window: the back stack, whose top
 is the folder on display, and the forward stack of folders left by going back.
 A stack is a sequence whose top is its last element.
 */
module History {
  import opened Wrappers
  import opened Paths

  datatype History = History(back: seq<Path>, forward: seq<Path>)

  /** The history of a freshly opened window. */
  const Empty: History := History([], [])

  function Top(s: seq<Path>): Path
    requires |s| > 0
  {
    s[|s| - 1]
  }

  function Pop(s: seq<Path>): seq<Path>
    requires |s| > 0
  {
    s[..|s| - 1]
  }

  /** The folder on display: the top of the back stack, if any. */
  function Current(h: History): Option<Path> {
    if |h.back| == 0 then None else Some(Top(h.back))
  }

  /** Whether the Back button is enabled. */
  predicate CanGoBack(h: History) {
    |h.back| > 1
  }

  /** Whether the Forward button is enabled. */
  predicate CanGoForward(h: History) {
    |h.forward| > 0
  }

  /** Opening a new folder, by browsing or by double-clicking a folder entry:
      it becomes the current folder above the old history, and the forward
      history is forgotten. */
  function NavigateTo(h: History, folder: Path): (r: History)
    ensures Current(r) == Some(folder)
    ensures Pop(r.back) == h.back
    ensures r.forward == []
  {
    History(h.back + [folder], [])
  }

  /** The Back button: a no-op unless there is an earlier folder; otherwise the
      current folder moves to the forward stack and the one below it is shown. */
  function Back(h: History): (r: History)
    ensures !CanGoBack(h) ==> r == h
    ensures CanGoBack(h) ==> r.back == Pop(h.back) && r.forward == h.forward + [Top(h.back)]
    ensures CanGoBack(h) ==> Current(r) == Some(h.back[|h.back| - 2])
  {
    if |h.back| <= 1 then h
    else History(Pop(h.back), h.forward + [Top(h.back)])
  }

  /** The Forward button: a no-op when the forward stack is empty; otherwise
      its top moves back onto the back stack and becomes the current folder. */
  function Forward(h: History): (r: History)
    ensures !CanGoForward(h) ==> r == h
    ensures CanGoForward(h) ==> r.back == h.back + [Top(h.forward)] && r.forward == Pop(h.forward)
    ensures CanGoForward(h) ==> Current(r) == Some(Top(h.forward))
  {
    if |h.forward| <= 0 then h
    else History(h.back + [Top(h.forward)], Pop(h.forward))
  }

  /** Going back and then forward again restores both stacks. */
  lemma BackThenForward(h: History)
    requires CanGoBack(h)
    ensures Forward(Back(h)) == h
  {
  }

  /** Going forward and then back again restores both stacks, once a folder is shown. */
  lemma ForwardThenBack(h: History)
    requires CanGoForward(h) && |h.back| > 0
    ensures Back(Forward(h)) == h
  {
  }

  /** Back and Forward only move folders between the stacks: together they hold
      the same folders before and after. */
  lemma TraversalKeepsFolders(h: History)
    ensures multiset(Back(h).back) + multiset(Back(h).forward) == multiset(h.back) + multiset(h.forward)
    ensures multiset(Forward(h).back) + multiset(Forward(h).forward) == multiset(h.back) + multiset(h.forward)
  {
    if CanGoBack(h) {
      assert h.back == Pop(h.back) + [Top(h.back)];
    }
    if CanGoForward(h) {
      assert h.forward == Pop(h.forward) + [Top(h.forward)];
    }
  }

  /** The user actions that drive the history. */
  datatype Action = Navigate(folder: Path) | GoBack | GoForward

  function Apply(h: History, a: Action): History {
    match a
    case Navigate(folder) => NavigateTo(h, folder)
    case GoBack => Back(h)
    case GoForward => Forward(h)
  }

  function Run(h: History, actions: seq<Action>): History
    decreases |actions|
  {
    if |actions| == 0 then h else Run(Apply(h, actions[0]), actions[1..])
  }

  /** Once a folder is on display, no sequence of actions leaves none on display. */
  lemma {:induction false} RunKeepsAFolderShown(h: History, actions: seq<Action>)
    requires |h.back| > 0
    ensures |Run(h, actions).back| > 0
    decreases |actions|
  {
    if |actions| > 0 {
      RunKeepsAFolderShown(Apply(h, actions[0]), actions[1..]);
    }
  }

  /** Opening A, then B, then going back shows A; going forward then shows B again. */
  lemma BackAndForwardBetweenTwoFolders(h: History, a: Path, b: Path)
    ensures Current(Run(h, [Navigate(a), Navigate(b), GoBack])) == Some(a)
    ensures Current(Run(h, [Navigate(a), Navigate(b), GoBack, GoForward])) == Some(b)
  {
    var h1 := NavigateTo(h, a);
    var h2 := NavigateTo(h1, b);
    assert Run(h, [Navigate(a), Navigate(b), GoBack]) == Run(h2, [GoBack]);
    assert Run(h, [Navigate(a), Navigate(b), GoBack, GoForward]) == Run(h2, [GoBack, GoForward]);
    assert Run(h2, [GoBack, GoForward]) == Run(Back(h2), [GoForward]);
  }

  // A reference model of the same history: the browser-style list of visited
  // folders with a cursor after the folder on display.

  function Reverse(s: seq<Path>): (r: seq<Path>)
    ensures |r| == |s|
  {
    if |s| == 0 then [] else [Top(s)] + Reverse(Pop(s))
  }

  lemma {:induction false} ReverseAppend(a: seq<Path>, b: seq<Path>)
    ensures Reverse(a + b) == Reverse(b) + Reverse(a)
    decreases |b|
  {
    if |b| == 0 {
      assert a + b == a;
    } else {
      assert Top(a + b) == Top(b);
      assert Pop(a + b) == a + Pop(b);
      ReverseAppend(a, Pop(b));
    }
  }

  lemma {:induction false} ReverseReverse(s: seq<Path>)
    ensures Reverse(Reverse(s)) == s
    decreases |s|
  {
    if |s| > 0 {
      ReverseReverse(Pop(s));
      ReverseAppend([Top(s)], Reverse(Pop(s)));
      assert Reverse([Top(s)]) == [Top(s)];
      assert s == Pop(s) + [Top(s)];
    }
  }

  /** Visited folders in order, with `cursor` folders up to and including the one on display. */
  datatype Timeline = Timeline(visited: seq<Path>, cursor: nat)

  predicate ValidTimeline(t: Timeline) {
    t.cursor <= |t.visited|
  }

  function TimelineCurrent(t: Timeline): Option<Path>
    requires ValidTimeline(t)
  {
    if t.cursor == 0 then None else Some(t.visited[t.cursor - 1])
  }

  /** Opening a folder drops whatever lay after the cursor. */
  function TimelineNavigate(t: Timeline, folder: Path): (r: Timeline)
    requires ValidTimeline(t)
    ensures ValidTimeline(r) && TimelineCurrent(r) == Some(folder)
    ensures r.cursor == |r.visited|
  {
    Timeline(t.visited[..t.cursor] + [folder], t.cursor + 1)
  }

  function TimelineBack(t: Timeline): (r: Timeline)
    requires ValidTimeline(t)
    ensures ValidTimeline(r) && r.visited == t.visited
  {
    if t.cursor > 1 then t.(cursor := t.cursor - 1) else t
  }

  function TimelineForward(t: Timeline): (r: Timeline)
    requires ValidTimeline(t)
    ensures ValidTimeline(r) && r.visited == t.visited
  {
    if t.cursor < |t.visited| then t.(cursor := t.cursor + 1) else t
  }

  /** The timeline a pair of stacks stands for: the back stack from bottom to
      top, then the forward stack from top to bottom. */
  function Abstract(h: History): (t: Timeline)
    ensures ValidTimeline(t)
    ensures TimelineCurrent(t) == Current(h)
  {
    Timeline(h.back + Reverse(h.forward), |h.back|)
  }

  /** The pair of stacks a timeline stands for. */
  function Concrete(t: Timeline): History
    requires ValidTimeline(t)
  {
    History(t.visited[..t.cursor], Reverse(t.visited[t.cursor..]))
  }

  /** The two representations are in one-to-one correspondence. */
  lemma RepresentationsCorrespond(h: History, t: Timeline)
    requires ValidTimeline(t)
    ensures Concrete(Abstract(h)) == h
    ensures Abstract(Concrete(t)) == t
  {
    assert (h.back + Reverse(h.forward))[..|h.back|] == h.back;
    assert (h.back + Reverse(h.forward))[|h.back|..] == Reverse(h.forward);
    ReverseReverse(h.forward);
    ReverseReverse(t.visited[t.cursor..]);
    assert t.visited[..t.cursor] + t.visited[t.cursor..] == t.visited;
  }

  /** Opening a folder moves the timeline as a browser history does: the
      folders after the cursor are dropped and the new one is appended. */
  lemma NavigateImplementsTimeline(h: History, folder: Path)
    ensures Abstract(NavigateTo(h, folder)) == TimelineNavigate(Abstract(h), folder)
  {
  }

  /** Back moves the timeline's cursor one folder earlier, if there is one. */
  lemma BackImplementsTimeline(h: History)
    ensures Abstract(Back(h)) == TimelineBack(Abstract(h))
  {
  }

  /** Forward moves the timeline's cursor one folder later, if there is one. */
  lemma ForwardImplementsTimeline(h: History)
    ensures Abstract(Forward(h)) == TimelineForward(Abstract(h))
  {
  }

  function TimelineApply(t: Timeline, a: Action): (r: Timeline)
    requires ValidTimeline(t)
    ensures ValidTimeline(r)
  {
    match a
    case Navigate(folder) => TimelineNavigate(t, folder)
    case GoBack => TimelineBack(t)
    case GoForward => TimelineForward(t)
  }

  function TimelineRun(t: Timeline, actions: seq<Action>): (r: Timeline)
    requires ValidTimeline(t)
    ensures ValidTimeline(r)
    decreases |actions|
  {
    if |actions| == 0 then t else TimelineRun(TimelineApply(t, actions[0]), actions[1..])
  }

  /** After any sequence of actions, the stacks stand for the timeline the same
      actions produce, so they show the same folder. */
  lemma {:induction false} RunImplementsTimeline(h: History, actions: seq<Action>)
    ensures Abstract(Run(h, actions)) == TimelineRun(Abstract(h), actions)
    ensures Current(Run(h, actions)) == TimelineCurrent(TimelineRun(Abstract(h), actions))
    decreases |actions|
  {
    if |actions| > 0 {
      match actions[0] {
        case Navigate(folder) => NavigateImplementsTimeline(h, folder);
        case GoBack => BackImplementsTimeline(h);
        case GoForward => ForwardImplementsTimeline(h);
      }
      RunImplementsTimeline(Apply(h, actions[0]), actions[1..]);
    }
  }
}

=== FILE: imagepopup.dfy ===
/**
 The image popup opened by double-clicking an image: it shows the file name
 without its extension in an editable text box, and on submit renames the
 file to the edited text within the same folder, then has the main window
 list that folder again.
 */
module ImagePopup {
  import opened Wrappers
  import opened Text
  import opened Paths
  import opened History
  import opened Listing
  import opened MainWindow

  datatype LoadError = NoSelectedPath | ImageLoadFailed

  /** The popup's state after loading: the name text box, the image shown,
      and the error reported, if any. */
  datatype Popup = Popup(nameText: string, image: Option<Path>, error: Option<LoadError>)

  /** The path of the selected item, `None` when nothing is selected. */
  function SelectedPath(selected: Option<Entry>): (p: Option<Path>)
    ensures p.Some? <==> selected.Some?
    ensures p.Some? ==> p.value == selected.value.path
  {
    match selected
    case None => None
    case Some(item) => Some(item.path)
  }

  /** Loading the popup. Without a selected path, or with an empty one, an
      error is reported and neither the name nor the image is set. Otherwise
      the name box gets the file name without its extension, and the image is
      shown unless decoding it fails (`loadFails`, a missing file or a
      malformed URI), which is reported instead. */
  function LoadImage(selected: Option<Entry>, loadFails: bool): (p: Popup)
    ensures SelectedPath(selected).None? || SelectedPath(selected).value == "" ==>
      p == Popup("", None, Some(NoSelectedPath))
    ensures SelectedPath(selected).Some? && SelectedPath(selected).value != "" ==>
      var path := SelectedPath(selected).value;
      && p.nameText == Stem(path)
      && (p.image.Some? <==> !loadFails) && (p.image.Some? ==> p.image.value == path)
      && (p.error.Some? <==> loadFails)
  {
    match SelectedPath(selected)
    case None => Popup("", None, Some(NoSelectedPath))
    case Some(path) =>
      if path == "" then Popup("", None, Some(NoSelectedPath))
      else if loadFails then Popup(Stem(path), None, Some(ImageLoadFailed))
      else Popup(Stem(path), Some(path), None)
  }

  /** For an image, the name shown is the file name minus a non-empty
      extension: the two put the file name back together. */
  lemma ShownNameOfImage(path: Path)
    requires GetFileType(RawEntry(path, false)) == Image
    ensures Extension(path) != ""
    ensures Stem(path) + Extension(path) == FileName(path)
  {
    NoEmptyImageExtension();
    StemAndExtension(path);
  }

  lemma NoEmptyImageExtension()
    ensures !IsImageFile(Lower(""))
  {
  }

  // Renaming

  datatype RenameError = ParentMissing | FileMissing | MoveError(error: MoveError)

  /** What submitting the popup leaves behind: the file system, the folder
      whose listing the main window reloads, if any, and the error reported, if any. */
  datatype RenameOutcome = RenameOutcome(fs: FileSystem, refresh: Option<Path>, error: Option<RenameError>)

  /** The folder the selected item lies in, when it has a non-empty one. */
  function Parent(selectedPath: Option<Path>): (parent: Option<Path>)
    ensures parent.Some? ==> parent.value != "" && selectedPath.Some? && selectedPath.value != ""
    ensures parent.Some? ==> Combine(parent.value, FileName(selectedPath.value)) == selectedPath.value
  {
    var d := DirectoryName(selectedPath);
    if d.None? || d.value == "" then None else d
  }

  /** Every path built from a non-empty folder and a plain name has that
      folder as its parent. */
  lemma ParentOfCombine(dir: Path, name: string)
    requires dir != "" && Separator !in name
    ensures Parent(Some(Combine(dir, name))) == Some(dir)
  {
    CombineSplits(dir, name);
  }

  /** Renames the selected file to `newName` in its own folder. An empty name
      does nothing at all. A path without a parent folder is reported. A
      selected path that is not an existing file is reported, and the folder
      is still listed again. A move that fails is reported and nothing is
      listed again; a move that succeeds lists the folder again. */
  function RenameTo(fs: FileSystem, selectedPath: Option<Path>, newName: string, ioFault: bool): (r: RenameOutcome)
    ensures newName == "" ==> r == RenameOutcome(fs, None, None)
    ensures newName != "" && Parent(selectedPath).None? ==> r == RenameOutcome(fs, None, Some(ParentMissing))
    ensures r.fs.dirs == fs.dirs
    ensures r.refresh.Some? ==> r.refresh == Parent(selectedPath)
    ensures r.error == Some(FileMissing) ==> r.fs == fs && r.refresh.Some? && selectedPath.value !in fs.files
    ensures r.error.Some? && r.error.value.MoveError? ==> r.fs == fs && r.refresh.None?
    ensures newName != "" && Parent(selectedPath).Some? && selectedPath.value !in fs.files ==>
      r == RenameOutcome(fs, Parent(selectedPath), Some(FileMissing))
    ensures newName != "" && Parent(selectedPath).Some? && selectedPath.value in fs.files ==>
      var source := selectedPath.value;
      var target := Combine(Parent(selectedPath).value, newName);
      if !ioFault && target !in fs.dirs && (target in fs.files ==> target == source) then
        && r.error.None? && r.refresh == Parent(selectedPath)
        && r.fs == fs.(files := fs.files - {source} + {target})
      else
        && r.fs == fs && r.refresh.None?
        && r.error.Some? && r.error.value.MoveError?
    ensures r.fs != fs ==>
      && newName != "" && Parent(selectedPath).Some?
      && selectedPath.value in fs.files && r.error.None? && r.refresh.Some?
      && var target := Combine(Parent(selectedPath).value, newName);
        r.fs.files == fs.files - {selectedPath.value} + {target}
  {
    if newName == "" then RenameOutcome(fs, None, None)
    else
      var parent := Parent(selectedPath);
      if parent.None? then RenameOutcome(fs, None, Some(ParentMissing))
      else
        var source := selectedPath.value;
        var target := Combine(parent.value, newName);
        if source in fs.files then
          match Move(fs, source, target, ioFault)
          case Moved(moved) => RenameOutcome(moved, parent, None)
          case MoveFailed(e) => RenameOutcome(fs, None, Some(MoveError(e)))
        else RenameOutcome(fs, parent, Some(FileMissing))
  }

  /** The submit button as written: the new name is the trimmed text, used as
      the whole final segment of the target, with no extension added back. */
  function RenameSelectedItem(fs: FileSystem, selectedPath: Option<Path>, nameText: string, ioFault: bool): (r: RenameOutcome)
    ensures AllWhiteSpace(nameText) ==> r == RenameOutcome(fs, None, None)
    ensures !AllWhiteSpace(nameText) && Parent(selectedPath).None? ==> r == RenameOutcome(fs, None, Some(ParentMissing))
  {
    RenameTo(fs, selectedPath, Trim(nameText), ioFault)
  }

  /** Where the selected file is moved to: the trimmed text as the final
      segment, under the same parent folder. */
  lemma RenameTargetIsSibling(selectedPath: Path, nameText: string)
    requires Parent(Some(selectedPath)).Some?
    requires Trim(nameText) != "" && Separator !in Trim(nameText)
    ensures var target := Combine(Parent(Some(selectedPath)).value, Trim(nameText));
      && DirectoryName(Some(target)) == DirectoryName(Some(selectedPath))
      && FileName(target) == Trim(nameText)
  {
    CombineSplits(Parent(Some(selectedPath)).value, Trim(nameText));
  }

  /** A rename touches only the selected path and its target: every other
      path is a file afterwards exactly when it was one before. */
  lemma RenameFrame(fs: FileSystem, selectedPath: Path, nameText: string, ioFault: bool, q: Path)
    requires Parent(Some(selectedPath)).Some?
    requires q != selectedPath && q != Combine(Parent(Some(selectedPath)).value, Trim(nameText))
    ensures var r := RenameSelectedItem(fs, Some(selectedPath), nameText, ioFault);
      (q in r.fs.files <==> q in fs.files) && r.fs.dirs == fs.dirs
  {
  }

  /** A successful rename of an existing file: the target was free, the
      source is gone, the target exists, and the parent folder is listed again. */
  lemma RenameMovesSelectedFile(fs: FileSystem, selectedPath: Path, nameText: string)
    requires Parent(Some(selectedPath)).Some? && !AllWhiteSpace(nameText)
    requires selectedPath in fs.files
    requires var target := Combine(Parent(Some(selectedPath)).value, Trim(nameText));
      target !in fs.dirs && (target in fs.files ==> target == selectedPath)
    ensures var r := RenameSelectedItem(fs, Some(selectedPath), nameText, false);
      var target := Combine(Parent(Some(selectedPath)).value, Trim(nameText));
      && r.error.None? && r.refresh == Parent(Some(selectedPath))
      && r.fs.files == fs.files - {selectedPath} + {target}
  {
  }

  // The extension the popup strips is not added back

  /** Submitting the popup with the name it shows renames `a.png` to `a`,
      which is then no image and drops out of the listing. */
  lemma UnchangedNameDropsExtension(fs: FileSystem, dir: Path)
    requires dir != ""
    requires Combine(dir, "a.png") in fs.files
    requires Combine(dir, "a") !in fs.files && Combine(dir, "a") !in fs.dirs
    ensures var popup := LoadImage(Some(Entry(Image, "a.png", Combine(dir, "a.png"))), false);
      && popup.nameText == "a"
      && RenameSelectedItem(fs, Some(Combine(dir, "a.png")), popup.nameText, false).fs.files
        == fs.files - {Combine(dir, "a.png")} + {Combine(dir, "a")}
      && GetFileType(RawEntry(Combine(dir, "a"), false)) == File
  {
    StemOfAPng(dir);
    ParentOfCombine(dir, "a.png");
    TrimOfA();
    ANameIsPlainFile(dir);
  }

  /** The popup shows `a` for `a.png`. */
  lemma StemOfAPng(dir: Path)
    requires dir != ""
    ensures Stem(Combine(dir, "a.png")) == "a"
  {
    CombineSplits(dir, "a.png");
    LastIndexOfUnique("a.png", '.', 1);
  }

  /** A file named `a` has no extension, so it is a plain file. */
  lemma ANameIsPlainFile(dir: Path)
    requires dir != ""
    ensures GetFileType(RawEntry(Combine(dir, "a"), false)) == File
  {
    CombineSplits(dir, "a");
    LastIndexOfUnique("a", '.', -1);
    NoEmptyImageExtension();
  }


  lemma TrimOfA()
    ensures Trim("a") == "a"
  {
  }

  /** The part of the file name `LoadImage` does not show: the extension,
      or a lone trailing `.`. */
  function StrippedSuffix(path: Path): (suffix: string)
    ensures Stem(path) + suffix == FileName(path)
  {
    var name := FileName(path);
    var k := |Stem(path)|;
    PrefixThenRest(name, k);
    name[k..]
  }

  /** The submit button with the shown-and-stripped suffix put back after the
      trimmed text, so that a rename changes the name and keeps the extension. */
  function RenameKeepingExtension(fs: FileSystem, selectedPath: Option<Path>, nameText: string, ioFault: bool): (r: RenameOutcome)
    ensures AllWhiteSpace(nameText) ==> r == RenameOutcome(fs, None, None)
    ensures !AllWhiteSpace(nameText) && Parent(selectedPath).None? ==> r == RenameOutcome(fs, None, Some(ParentMissing))
  {
    var newName := Trim(nameText);
    if newName == "" || selectedPath.None? then RenameTo(fs, selectedPath, newName, ioFault)
    else RenameTo(fs, selectedPath, newName + StrippedSuffix(selectedPath.value), ioFault)
  }

  /** Submitting the name the popup shows leaves the file system as it was. */
  lemma UnchangedNameRenamesNothing(fs: FileSystem, entry: Entry, ioFault: bool)
    requires Parent(Some(entry.path)).Some?
    requires Trim(Stem(entry.path)) == Stem(entry.path) != ""
    ensures RenameKeepingExtension(fs, Some(entry.path), LoadImage(Some(entry), false).nameText, ioFault).fs == fs
  {
    var p := entry.path;
    assert LoadImage(Some(entry), false).nameText == Stem(p);
    RenameToSelf(fs, p, Stem(p) + StrippedSuffix(p), ioFault);
  }

  /** Renaming a file to the path it already has leaves the file system as it was. */
  lemma RenameToSelf(fs: FileSystem, selectedPath: Path, newName: string, ioFault: bool)
    requires Parent(Some(selectedPath)).Some?
    requires Combine(Parent(Some(selectedPath)).value, newName) == selectedPath
    ensures RenameTo(fs, Some(selectedPath), newName, ioFault).fs == fs
  {
    if selectedPath in fs.files {
      assert fs.files - {selectedPath} + {selectedPath} == fs.files;
    }
  }

  /** After the corrected rename, the target carries the source's extension,
      so an image stays an image and stays listed. */
  lemma RenameKeepsKind(selectedPath: Path, nameText: string)
    requires Extension(selectedPath) != "" && Parent(Some(selectedPath)).Some?
    ensures var target := Combine(Parent(Some(selectedPath)).value, Trim(nameText) + StrippedSuffix(selectedPath));
      && Extension(target) == Extension(selectedPath)
      && GetFileType(RawEntry(target, false)) == GetFileType(RawEntry(selectedPath, false))
  {
    var ext := Extension(selectedPath);
    assert StrippedSuffix(selectedPath) == ext by {
      StemAndExtension(selectedPath);
    }
    assert |ext| >= 2 && ext[0] == '.' && '.' !in ext[1..] && Separator !in ext by {
      ExtensionInFileName(selectedPath);
    }
    var target := Combine(Parent(Some(selectedPath)).value, Trim(nameText) + StrippedSuffix(selectedPath));
    SuffixIsExtension(Parent(Some(selectedPath)).value, Trim(nameText), ext);
    SameExtensionSameKind(target, selectedPath);
  }

  /** Files are classified by extension alone. */
  lemma SameExtensionSameKind(a: Path, b: Path)
    requires Extension(a) == Extension(b)
    ensures GetFileType(RawEntry(a, false)) == GetFileType(RawEntry(b, false))
  {
  }

  /** Appending an extension to the new name makes it the target's extension. */
  lemma SuffixIsExtension(dir: Path, newName: string, ext: string)
    requires dir != ""
    requires |ext| >= 2 && ext[0] == '.' && '.' !in ext[1..] && Separator !in ext
    ensures Extension(Combine(dir, newName + ext)) == ext
  {
    CombineAppend(dir, newName, ext);
    ExtensionOfSuffix(Combine(dir, newName), ext);
  }

  /** An extension lies within the final segment, so it holds no separator. */
  lemma ExtensionInFileName(p: Path)
    ensures Separator !in Extension(p)
  {
  }

  // The main window after the popup closes

  /** The main window once the popup has closed: the folder to refresh, if
      any, is listed; the stacks, the path box and the buttons are untouched. */
  function AfterRename(w: Window, outcome: RenameOutcome): (r: Window)
    ensures r.history == w.history && r.pathText == w.pathText && r.buttons == w.buttons
    ensures r.shown == if outcome.refresh.Some? then outcome.refresh else w.shown
  {
    if outcome.refresh.Some? then w.(shown := outcome.refresh) else w
  }

  /** Renaming an item listed in the current folder lists that same folder
      again, so the window stays coherent. */
  lemma RenameRefreshesCurrentFolder(w: Window, fs: FileSystem, dir: Path, name: string, nameText: string, ioFault: bool)
    requires Coherent(w) && Current(w.history) == Some(dir)
    requires dir != "" && Separator !in name
    ensures var r := RenameSelectedItem(fs, Some(Combine(dir, name)), nameText, ioFault);
      r.refresh.Some? ==> r.refresh == Some(dir)
    ensures Coherent(AfterRename(w, RenameSelectedItem(fs, Some(Combine(dir, name)), nameText, ioFault)))
    ensures Coherent(AfterRename(w, RenameKeepingExtension(fs, Some(Combine(dir, name)), nameText, ioFault)))
  {
    CombineSplits(dir, name);
  }
}

=== FILE: listing.dfy ===
/**
 The directory listing of the main window: each raw file-system entry is
 classified as a folder, an image or a plain file, plain files are dropped, and
 folders are put before images without otherwise changing the enumeration order.
 */
module Listing {
  import opened Text
  import opened Paths

  datatype Kind = Folder | Image | File

  /** What the file system reports for one entry of a directory. */
  datatype RawEntry = RawEntry(path: Path, isDirectory: bool)

  /** One row of the list view. The icon is left out. */
  datatype Entry = Entry(kind: Kind, name: string, path: Path)

  const ImageExtensions: seq<string> := [".jpg", ".jpeg", ".png", ".gif", ".bmp"]

  /** A dot followed by at least one lower-case ASCII letter, as every image extension is. */
  predicate IsLowerCaseExtension(e: string) {
    && |e| >= 2
    && e[0] == '.'
    && forall k :: 1 <= k < |e| ==> 'a' <= e[k] <= 'z'
  }

  /** `IsImageFile`, after the lower-casing `GetFileType` applies: the extension is
      one of the image extensions. */
  predicate IsImageFile(extension: string) {
    Lower(extension) in ImageExtensions
  }

  /** The extensions are compared as `imageExtensions.Contains(extension,
      StringComparer.OrdinalIgnoreCase)` does: some image extension equals the
      given one, ignoring case. */
  lemma IsImageFileIsCaseInsensitiveContains(extension: string)
    ensures IsImageFile(extension) <==> ContainsIgnoreCase(ImageExtensions, extension)
  {
    ContainsIgnoreCaseIff(ImageExtensions, extension);
    ImageExtensionsAreLowerCase();
    if IsImageFile(extension) {
      var e := Lower(extension);
      EqualsIgnoreCaseIsLowerEqual(extension, e);
      LowerIdempotent(extension);
    }
    if ContainsIgnoreCase(ImageExtensions, extension) {
      var e :| e in ImageExtensions && EqualsIgnoreCase(extension, e);
      EqualsIgnoreCaseIsLowerEqual(extension, e);
    }
  }

  /** `GetFileType`: a directory is a folder whatever its name; otherwise the
      lower-cased extension decides between an image and a plain file. */
  function GetFileType(entry: RawEntry): (kind: Kind)
    ensures kind == Folder <==> entry.isDirectory
    ensures kind == Image <==> !entry.isDirectory && ContainsIgnoreCase(ImageExtensions, Extension(entry.path))
    ensures kind == File <==> !entry.isDirectory && !ContainsIgnoreCase(ImageExtensions, Extension(entry.path))
  {
    IsImageFileIsCaseInsensitiveContains(Lower(Extension(entry.path)));
    IsImageFileIsCaseInsensitiveContains(Extension(entry.path));
    LowerIdempotent(Extension(entry.path));
    if entry.isDirectory then Folder
    else if IsImageFile(Lower(Extension(entry.path))) then Image
    else File
  }

  /** `CreateFileInfo`: the list-view row for one entry. */
  function CreateFileInfo(entry: RawEntry): (info: Entry)
    ensures info.path == entry.path
    ensures info.name == FileName(entry.path)
    ensures info.kind == Folder <==> entry.isDirectory
    ensures info.kind == GetFileType(entry)
  {
    Entry(GetFileType(entry), FileName(entry.path), entry.path)
  }

  predicate EndsWithIgnoreCase(s: string, suffix: string) {
    |suffix| <= |s| && EqualsIgnoreCase(s[|s| - |suffix|..], suffix)
  }

  lemma ImageExtensionsAreLowerCase()
    ensures forall e | e in ImageExtensions :: IsLowerCaseExtension(e) && Lower(e) == e
  {
  }

  lemma LowerIdempotent(s: string)
    ensures Lower(Lower(s)) == Lower(s)
  {
  }

  /** Text that lower-cases to an image extension is itself an extension: a dot,
      then letters, and no separator. */
  lemma LowersToExtension(x: string, e: string)
    requires IsLowerCaseExtension(e) && Lower(x) == e
    ensures |x| >= 2 && x[0] == '.' && '.' !in x[1..] && Separator !in x
  {
  }

  /** Classification by name alone: an entry is an image exactly when it is not a
      directory and its path ends, ignoring case, in one of the image extensions. */
  lemma ImageIffImageSuffix(entry: RawEntry)
    ensures GetFileType(entry) == Image <==>
      !entry.isDirectory && exists e | e in ImageExtensions :: EndsWithIgnoreCase(entry.path, e)
  {
    if GetFileType(entry) == Image {
      ImageHasImageSuffix(entry);
    }
    if !entry.isDirectory && exists e | e in ImageExtensions :: EndsWithIgnoreCase(entry.path, e) {
      var e :| e in ImageExtensions && EndsWithIgnoreCase(entry.path, e);
      ImageSuffixMakesImage(entry.path, e);
    }
  }

  lemma ImageHasImageSuffix(entry: RawEntry)
    requires GetFileType(entry) == Image
    ensures exists e | e in ImageExtensions :: EndsWithIgnoreCase(entry.path, e)
  {
    var p := entry.path;
    var ext := Extension(p);
    var e := Lower(Lower(ext));
    LowerIdempotent(ext);
    assert e in ImageExtensions;
    EndsWithLoweredExtension(p);
    assert EndsWithIgnoreCase(p, e);
  }

  /** A path ends, ignoring case, in its extension lower-cased. */
  lemma EndsWithLoweredExtension(p: Path)
    ensures EndsWithIgnoreCase(p, Lower(Extension(p)))
  {
    var x := Extension(p);
    ExtensionIsSuffix(p);
    assert |x| <= |p| && p[|p| - |x|..] == x;
    EndsWithLoweredSuffix(p, x);
  }

  /** A string ends, ignoring case, in any suffix of it lower-cased. */
  lemma EndsWithLoweredSuffix(p: string, x: string)
    requires |x| <= |p| && p[|p| - |x|..] == x
    ensures EndsWithIgnoreCase(p, Lower(x))
  {
  }

  lemma ImageSuffixMakesImage(p: Path, e: string)
    requires e in ImageExtensions && EndsWithIgnoreCase(p, e)
    ensures IsImageFile(Lower(Extension(p)))
  {
    ImageExtensionsAreLowerCase();
    var x := p[|p| - |e|..];
    EqualsIgnoreCaseIsLowerEqual(x, e);
    LowersToExtension(x, e);
    assert p == p[..|p| - |e|] + x;
    ExtensionOfSuffix(p[..|p| - |e|], x);
    LowerIdempotent(x);
  }

  /** The rows for a sequence of entries, in enumeration order. */
  function Infos(entries: seq<RawEntry>): (infos: seq<Entry>)
    ensures |infos| == |entries|
    ensures forall i | 0 <= i < |entries| :: infos[i] == CreateFileInfo(entries[i])
  {
    MapSeq(CreateFileInfo, entries)
  }

  function MapSeq<A, B>(f: A -> B, s: seq<A>): (r: seq<B>)
    ensures |r| == |s|
    ensures forall i | 0 <= i < |s| :: r[i] == f(s[i])
  {
    seq(|s|, i requires 0 <= i < |s| => f(s[i]))
  }

  lemma MapSeqOfThree<A, B>(f: A -> B, a: A, b: A, c: A)
    ensures MapSeq(f, [a, b, c]) == [f(a), f(b), f(c)]
  {
  }

  /** The rows of one kind, in their original order. */
  function OfKind(es: seq<Entry>, k: Kind): (r: seq<Entry>)
    ensures |r| <= |es|
    ensures forall i | 0 <= i < |r| :: r[i].kind == k
  {
    if |es| == 0 then []
    else
      var last := es[|es| - 1];
      OfKind(es[..|es| - 1], k) + (if last.kind == k then [last] else [])
  }

  /** The rows the listing keeps: everything that is not a plain file, in order. */
  function Kept(es: seq<Entry>): seq<Entry> {
    if |es| == 0 then []
    else
      var last := es[|es| - 1];
      Kept(es[..|es| - 1]) + (if last.kind != File then [last] else [])
  }

  /** What the listing of `entries` must be: no plain files, all folders before
      all images, and within each kind the enumeration order kept. */
  predicate IsListingOf(listing: seq<Entry>, infos: seq<Entry>) {
    && (forall i | 0 <= i < |listing| :: listing[i].kind != File)
    && (forall i, j | 0 <= i < j < |listing| :: listing[j].kind == Folder ==> listing[i].kind == Folder)
    && OfKind(listing, Folder) == OfKind(infos, Folder)
    && OfKind(listing, Image) == OfKind(infos, Image)
  }

  /** `UpdateFileList`: classify every entry, keep folders and images, and order
      them by "is a folder", descending, with a stable sort. The result is a
      permutation of the kept rows. */
  method UpdateFileList(entries: seq<RawEntry>) returns (listing: seq<Entry>)
    ensures IsListingOf(listing, Infos(entries))
    ensures multiset(listing) == multiset(Kept(Infos(entries)))
  {
    var infos := Infos(entries);
    var folders, images := PartitionByKind(infos);
    listing := folders + images;
    PartitionIsListing(infos, folders, images);
    KeptIsFoldersAndImages(infos);
  }

  /** One pass over the rows, collecting the folders and the images, each in order. */
  method PartitionByKind(infos: seq<Entry>) returns (folders: seq<Entry>, images: seq<Entry>)
    ensures folders == OfKind(infos, Folder)
    ensures images == OfKind(infos, Image)
  {
    folders, images := [], [];
    for i := 0 to |infos|
      invariant folders == OfKind(infos[..i], Folder)
      invariant images == OfKind(infos[..i], Image)
    {
      var info := infos[i];
      assert infos[..i + 1] == infos[..i] + [info];
      OfKindSnoc(infos[..i], info, Folder);
      OfKindSnoc(infos[..i], info, Image);
      if info.kind == Folder {
        folders := folders + [info];
      } else if info.kind == Image {
        images := images + [info];
      }
    }
    assert infos[..|infos|] == infos;
  }

  /** One more row extends the rows of its own kind and no other. */
  lemma OfKindSnoc(es: seq<Entry>, e: Entry, k: Kind)
    ensures OfKind(es + [e], k) == OfKind(es, k) + (if e.kind == k then [e] else [])
  {
  }

  /** The kept rows are the folders and the images, counted with multiplicity. */
  lemma {:induction false} KeptIsFoldersAndImages(es: seq<Entry>)
    ensures multiset(Kept(es)) == multiset(OfKind(es, Folder)) + multiset(OfKind(es, Image))
    decreases |es|
  {
    if |es| > 0 {
      KeptIsFoldersAndImages(es[..|es| - 1]);
    }
  }

  lemma PartitionIsListing(infos: seq<Entry>, folders: seq<Entry>, images: seq<Entry>)
    requires folders == OfKind(infos, Folder)
    requires images == OfKind(infos, Image)
    ensures IsListingOf(folders + images, infos)
  {
    FoldersThenImagesIsListing(folders, images);
    var listing := folders + images;
    forall i, j | 0 <= i < j < |listing| && listing[j].kind == Folder
      ensures listing[i].kind == Folder
    {
      assert j < |folders|;
    }
  }

  lemma FoldersThenImagesIsListing(folders: seq<Entry>, images: seq<Entry>)
    requires forall i | 0 <= i < |folders| :: folders[i].kind == Folder
    requires forall i | 0 <= i < |images| :: images[i].kind == Image
    ensures OfKind(folders + images, Folder) == folders
    ensures OfKind(folders + images, Image) == images
  {
    OfKindAppend(folders, images, Folder);
    OfKindAppend(folders, images, Image);
    OfKindAll(folders, Folder);
    OfKindNone(folders, Image);
    OfKindAll(images, Image);
    OfKindNone(images, Folder);
  }

  lemma {:induction false} OfKindAppend(a: seq<Entry>, b: seq<Entry>, k: Kind)
    ensures OfKind(a + b, k) == OfKind(a, k) + OfKind(b, k)
    decreases |b|
  {
    if |b| == 0 {
      assert a + b == a;
    } else {
      assert (a + b)[..|a + b| - 1] == a + b[..|b| - 1];
      OfKindAppend(a, b[..|b| - 1], k);
    }
  }

  lemma {:induction false} OfKindAll(es: seq<Entry>, k: Kind)
    requires forall i | 0 <= i < |es| :: es[i].kind == k
    ensures OfKind(es, k) == es
    decreases |es|
  {
    if |es| > 0 {
      OfKindAll(es[..|es| - 1], k);
    }
  }

  lemma {:induction false} OfKindNone(es: seq<Entry>, k: Kind)
    requires forall i | 0 <= i < |es| :: es[i].kind != k
    ensures OfKind(es, k) == []
    decreases |es|
  {
    if |es| > 0 {
      OfKindNone(es[..|es| - 1], k);
    }
  }

  /** A sequence with no plain files and its folders first is its folders
      followed by its images. */
  lemma {:induction false} FoldersFirstSplits(listing: seq<Entry>)
    requires forall i | 0 <= i < |listing| :: listing[i].kind != File
    requires forall i, j | 0 <= i < j < |listing| :: listing[j].kind == Folder ==> listing[i].kind == Folder
    ensures listing == OfKind(listing, Folder) + OfKind(listing, Image)
    decreases |listing|
  {
    if |listing| > 0 {
      var init := listing[..|listing| - 1];
      var last := listing[|listing| - 1];
      FoldersFirstSplits(init);
      if last.kind == Folder {
        OfKindNone(init, Image);
      }
    }
  }

  /** The listing of a directory is determined by its entries: it is exactly
      the folders, in enumeration order, followed by the images, in enumeration order. */
  lemma ListingIsUnique(listing: seq<Entry>, infos: seq<Entry>)
    requires IsListingOf(listing, infos)
    ensures listing == OfKind(infos, Folder) + OfKind(infos, Image)
  {
    FoldersFirstSplits(listing);
  }

  /** A path ending in `.png` is classified as an image. */
  lemma PngIsImage(stem: Path)
    ensures IsImageFile(Lower(Extension(stem + ".png")))
    ensures GetFileType(RawEntry(stem + ".png", false)) == Image
  {
    ExtensionOfSuffix(stem, ".png");
    LowerPng();
  }

  lemma LowerPng()
    ensures Lower(".png") == ".png" && Lower(Lower(".png")) in ImageExtensions
  {
  }
}

=== FILE: listing_example.dfy ===
/**
 A worked example of the directory listing: one plain file, one image and one
 sub-folder, enumerated in that order.
 */
module ListingExample {
  import opened Text
  import opened Paths
  import opened Listing

  /** A folder holding `b.txt`, `a.png` and the sub-folder `sub`, enumerated in
      that order, is listed as `sub` then `a.png`. */
  lemma ListingExample(dir: Path, listing: seq<Entry>)
    requires dir != ""
    requires IsListingOf(listing, Infos([RawEntry(Combine(dir, "b.txt"), false), RawEntry(Combine(dir, "a.png"), false), RawEntry(Combine(dir, "sub"), true)]))
    ensures listing == [Entry(Folder, "sub", Combine(dir, "sub")), Entry(Image, "a.png", Combine(dir, "a.png"))]
  {
    var txt, png, sub := Entry(File, "b.txt", Combine(dir, "b.txt")), Entry(Image, "a.png", Combine(dir, "a.png")), Entry(Folder, "sub", Combine(dir, "sub"));
    ExampleInfos(dir);
    ListingIsUnique(listing, [txt, png, sub]);
    ExampleKinds(txt, png, sub);
  }

  lemma ExampleInfos(dir: Path)
    requires dir != ""
    ensures Infos([RawEntry(Combine(dir, "b.txt"), false), RawEntry(Combine(dir, "a.png"), false), RawEntry(Combine(dir, "sub"), true)])
      == [Entry(File, "b.txt", Combine(dir, "b.txt")), Entry(Image, "a.png", Combine(dir, "a.png")), Entry(Folder, "sub", Combine(dir, "sub"))]
  {
    ExampleRows(dir);
    MapSeqOfThree(CreateFileInfo, RawEntry(Combine(dir, "b.txt"), false), RawEntry(Combine(dir, "a.png"), false), RawEntry(Combine(dir, "sub"), true));
  }

  lemma ExampleKinds(txt: Entry, png: Entry, sub: Entry)
    requires txt.kind == File && png.kind == Image && sub.kind == Folder
    ensures OfKind([txt, png, sub], Folder) == [sub]
    ensures OfKind([txt, png, sub], Image) == [png]
  {
    assert [txt, png, sub][..2] == [txt, png] && [txt, png][..1] == [txt];
    assert OfKind([txt], Folder) == [] && OfKind([txt], Image) == [];
  }

  lemma ExampleRows(dir: Path)
    requires dir != ""
    ensures CreateFileInfo(RawEntry(Combine(dir, "b.txt"), false)) == Entry(File, "b.txt", Combine(dir, "b.txt"))
    ensures CreateFileInfo(RawEntry(Combine(dir, "a.png"), false)) == Entry(Image, "a.png", Combine(dir, "a.png"))
    ensures CreateFileInfo(RawEntry(Combine(dir, "sub"), true)) == Entry(Folder, "sub", Combine(dir, "sub"))
  {
    CombineSplits(dir, "b.txt");
    CombineSplits(dir, "a.png");
    CombineSplits(dir, "sub");
    assert Combine(dir, "b.txt") == Combine(dir, "b") + ".txt";
    assert Combine(dir, "a.png") == Combine(dir, "a") + ".png";
    TxtIsNotImage(Combine(dir, "b"));
    PngIsImage(Combine(dir, "a"));
  }

  lemma TxtIsNotImage(stem: Path)
    ensures !IsImageFile(Lower(Extension(stem + ".txt")))
  {
    ExtensionOfSuffix(stem, ".txt");
    LowerTxt();
    TxtIsNoImageExtension();
  }

  lemma LowerTxt()
    ensures Lower(".txt") == ".txt"
  {
  }

  lemma TxtIsNoImageExtension()
    ensures !IsImageFile(".txt")
  {
    ImageExtensionsAreLowerCase();
    forall e | e in ImageExtensions
      ensures Lower(".txt") != Lower(e)
    {
      assert e[1] != 't';
    }
  }
}

=== FILE: mainwindow.dfy ===
/**
 The main window's event handlers as transitions of an immutable window
 state: Browse, Back, Forward, double-clicking a listed item and taking a
 snapshot. Dialogs, the camera and the list view itself are inputs or are
 left out; what remains is the two history stacks, the path text box, the
 folder whose listing is shown and the enablement of the three buttons.
 */
module MainWindow {
  import opened Wrappers
  import opened Text
  import opened Paths
  import opened History
  import opened Listing
  import opened Snapshot

  datatype Buttons = Buttons(takePicture: bool, back: bool, forward: bool)

  /** `shown` is the folder the list view was last filled from, `None` before
      the first listing. */
  datatype Window = Window(history: History, pathText: string, shown: Option<Path>, buttons: Buttons)

  const InvalidPath: string := "Invalid Path"

  /** The text the path box shows for a folder path: the path itself, or a
      marker when the path is empty or only white space. It is never empty. */
  function PathText(path: string): (text: string)
    ensures text != ""
    ensures !AllWhiteSpace(path) ==> text == path
    ensures AllWhiteSpace(path) ==> text == InvalidPath
  {
    if !AllWhiteSpace(path) then path else InvalidPath
  }

  /** Button enablement derived from the path text and the stack sizes. */
  function UpdateButtonStates(h: History, pathText: string): (b: Buttons)
    ensures b.takePicture <==> pathText != ""
    ensures b.back <==> |h.back| > 1
    ensures b.forward <==> |h.forward| > 0
  {
    Buttons(pathText != "", CanGoBack(h), CanGoForward(h))
  }

  /** The window as constructed: empty stacks, the designer's initial path
      text, no listing, and the buttons computed once. */
  function Opened(initialText: string): (w: Window)
    ensures w.history == Empty && w.shown.None?
    ensures !w.buttons.back && !w.buttons.forward
  {
    Window(Empty, initialText, None, UpdateButtonStates(Empty, initialText))
  }

  /** What every handler that changes the stacks leaves behind: the Back and
      Forward buttons agree with the stacks and the listing shows the current folder. */
  predicate Coherent(w: Window) {
    && (w.buttons.back <==> CanGoBack(w.history))
    && (w.buttons.forward <==> CanGoForward(w.history))
    && w.shown == Current(w.history)
  }

  /** Shows `folder` as the newly current folder: its listing, its path text
      and buttons recomputed for the new stacks. */
  function ShowFolder(h: History, folder: Path): (w: Window)
    requires Current(h) == Some(folder)
    ensures w.history == h && w.shown == Some(folder) && w.pathText == PathText(folder)
    ensures Coherent(w)
    ensures w.buttons.takePicture
  {
    var text := PathText(folder);
    Window(h, text, Some(folder), UpdateButtonStates(h, text))
  }

  /** The Browse button. The dialog's answer is an input: whether it was
      confirmed and the path it holds. The path box is updated from the
      dialog in every case; only a confirmed, non-empty path is navigated to. */
  function Browse(w: Window, dialogOk: bool, selectedPath: string): (r: Window)
    ensures r.pathText == PathText(selectedPath)
    ensures !dialogOk || selectedPath == "" ==>
      r.history == w.history && r.shown == w.shown && r.buttons == w.buttons
    ensures dialogOk && selectedPath != "" ==>
      && Current(r.history) == Some(selectedPath)
      && r.history.forward == []
      && Pop(r.history.back) == w.history.back
      && Coherent(r) && r.buttons.takePicture
  {
    var text := PathText(selectedPath);
    if !dialogOk || selectedPath == "" then w.(pathText := text)
    else ShowFolder(NavigateTo(w.history, selectedPath), selectedPath)
  }

  /** The Forward button: nothing happens with an empty forward stack. */
  function ForwardClick(w: Window): (r: Window)
    ensures !CanGoForward(w.history) ==> r == w
    ensures CanGoForward(w.history) ==>
      r.history == Forward(w.history) && r.shown == Some(Top(w.history.forward))
      && r.pathText == PathText(Top(w.history.forward))
      && Coherent(r) && r.buttons.takePicture
  {
    if !CanGoForward(w.history) then w
    else ShowFolder(Forward(w.history), Top(w.history.forward))
  }

  /** The Back button: nothing happens unless there is a folder below the current one. */
  function BackClick(w: Window): (r: Window)
    ensures !CanGoBack(w.history) ==> r == w
    ensures CanGoBack(w.history) ==>
      r.history == Back(w.history) && r.shown == Some(w.history.back[|w.history.back| - 2])
      && r.pathText == PathText(w.history.back[|w.history.back| - 2])
      && Coherent(r) && r.buttons.takePicture
  {
    if !CanGoBack(w.history) then w
    else
      var h := Back(w.history);
      ShowFolder(h, Top(h.back))
  }

  datatype DoubleClickResult = DoubleClickResult(window: Window, popup: Option<Entry>)

  /** A double-click on the list view. A folder is navigated to; an image
      opens the popup on it; anything else, or no selection, does nothing. */
  function DoubleClick(w: Window, selected: Option<Entry>): (r: DoubleClickResult)
    ensures r.popup.Some? <==> selected.Some? && selected.value.kind == Image
    ensures r.popup.Some? ==> r.popup == selected
    ensures selected.None? || selected.value.kind != Folder ==> r.window == w
    ensures selected.Some? && selected.value.kind == Folder ==>
      && Current(r.window.history) == Some(selected.value.path)
      && r.window.history.forward == []
      && Pop(r.window.history.back) == w.history.back
      && r.window.shown == Some(selected.value.path)
      && r.window.pathText == PathText(selected.value.path)
      && Coherent(r.window) && r.window.buttons.takePicture
  {
    match selected
    case None => DoubleClickResult(w, None)
    case Some(item) =>
      if item.kind == Folder then
        DoubleClickResult(ShowFolder(NavigateTo(w.history, item.path), item.path), None)
      else if item.kind == Image then DoubleClickResult(w, Some(item))
      else DoubleClickResult(w, None)
  }

  /** Navigating to a folder has the same effect whether the folder was chosen
      in the Browse dialog or double-clicked in the listing. */
  lemma BrowseIsDoubleClickOnFolder(w: Window, item: Entry)
    requires item.kind == Folder && item.path != ""
    ensures Browse(w, true, item.path) == DoubleClick(w, Some(item)).window
  {
  }

  // Sequences of user events

  datatype Event =
    | Browsed(dialogOk: bool, selectedPath: string)
    | BackClicked
    | ForwardClicked
    | DoubleClicked(selected: Option<Entry>)

  function Handle(w: Window, e: Event): Window {
    match e
    case Browsed(ok, path) => Browse(w, ok, path)
    case BackClicked => BackClick(w)
    case ForwardClicked => ForwardClick(w)
    case DoubleClicked(selected) => DoubleClick(w, selected).window
  }

  function Replay(w: Window, events: seq<Event>): Window
    decreases |events|
  {
    if events == [] then w else Replay(Handle(w, events[0]), events[1..])
  }

  /** The history action an event performs, if any. */
  function ActionOf(e: Event): Option<Action> {
    match e
    case Browsed(ok, path) => if ok && path != "" then Some(Navigate(path)) else None
    case BackClicked => Some(GoBack)
    case ForwardClicked => Some(GoForward)
    case DoubleClicked(selected) =>
      if selected.Some? && selected.value.kind == Folder then Some(Navigate(selected.value.path)) else None
  }

  function Actions(events: seq<Event>): (actions: seq<Action>)
    ensures |actions| <= |events|
    decreases |events|
  {
    if events == [] then []
    else
      var rest := Actions(events[1..]);
      match ActionOf(events[0])
      case None => rest
      case Some(a) => [a] + rest
  }

  /** Each handler moves the stacks exactly as the history action of its event. */
  lemma HandleRunsAction(w: Window, e: Event)
    ensures (Handle(w, e).history == match ActionOf(e) case None => w.history case Some(a) => Apply(w.history, a))
  {
  }

  /** Whatever the user does, the stacks evolve as the history model runs the
      navigation actions among the events; dialogs cancelled and items that are
      not folders leave them alone. */
  lemma {:induction false} ReplayRunsActions(w: Window, events: seq<Event>)
    ensures Replay(w, events).history == Run(w.history, Actions(events))
    decreases |events|
  {
    if events != [] {
      var w' := Handle(w, events[0]);
      ReplayRunsActions(w', events[1..]);
      HandleRunsAction(w, events[0]);
      match ActionOf(events[0]) {
        case None =>
        case Some(a) =>
          assert ([a] + Actions(events[1..]))[1..] == Actions(events[1..]);
      }
    }
  }

  /** Every handler keeps the buttons and the listing in step with the stacks. */
  lemma HandleKeepsCoherent(w: Window, e: Event)
    requires Coherent(w)
    ensures Coherent(Handle(w, e))
  {
  }

  lemma {:induction false} ReplayKeepsCoherent(w: Window, events: seq<Event>)
    requires Coherent(w)
    ensures Coherent(Replay(w, events))
    decreases |events|
  {
    if events != [] {
      HandleKeepsCoherent(w, events[0]);
      ReplayKeepsCoherent(Handle(w, events[0]), events[1..]);
    }
  }

  /** The freshly opened window is coherent, so every window the user can reach is. */
  lemma OpenedIsCoherent(initialText: string)
    ensures Coherent(Opened(initialText))
  {
  }

  // Taking a snapshot

  datatype SnapshotOutcome =
    | NoFrame
      /** `Peek` on the empty back stack throws, and nothing catches it. */
    | EmptyHistoryCrash
    | Saved(fs: FileSystem, file: Path, window: Window)

  /** The take-picture button. Whether the camera has delivered a frame and
      the current time are inputs. A snapshot is saved as a new file in the
      current folder, whose listing is then shown again. */
  function TakePicture(w: Window, fs: FileSystem, frameCaptured: bool, now: Timestamp): (r: SnapshotOutcome)
    ensures r.NoFrame? <==> !frameCaptured
    ensures r.EmptyHistoryCrash? <==> frameCaptured && Current(w.history).None?
    ensures r.Saved? ==>
      && r.fs.files == fs.files + {r.file} && r.fs.dirs == fs.dirs
      && FileName(r.file) == SnapshotName(now)
      && r.window == w.(shown := Current(w.history))
    ensures r.Saved? && Current(w.history) != Some("") ==>
      DirectoryName(Some(r.file)) == Current(w.history)
  {
    if !frameCaptured then NoFrame
    else if |w.history.back| == 0 then EmptyHistoryCrash
    else
      var folder := Top(w.history.back);
      var file := Combine(folder, SnapshotName(now));
      SnapshotPath(folder, now);
      Saved(fs.(files := fs.files + {file}), file, w.(shown := Some(folder)))
  }

  /** The snapshot is saved under its own name, directly inside the folder. */
  lemma SnapshotPath(folder: Path, now: Timestamp)
    ensures FileName(Combine(folder, SnapshotName(now))) == SnapshotName(now)
    ensures folder != "" ==> DirectoryName(Some(Combine(folder, SnapshotName(now)))) == Some(folder)
  {
    SnapshotNameIsAFileName(now);
    if folder != "" {
      CombineSplits(folder, SnapshotName(now));
    }
  }

  lemma SnapshotNameIsAFileName(now: Timestamp)
    ensures FileName(SnapshotName(now)) == SnapshotName(now)
  {
    var stamp := Stamp(now);
    assert Separator !in stamp by {
      forall i | 0 <= i < |stamp|
        ensures stamp[i] != Separator
      {
        assert IsDigit(stamp[i]);
      }
    }
    assert Separator !in Prefix + stamp + Suffix;
    LastIndexOfUnique(SnapshotName(now), Separator, -1);
  }

  /** A saved snapshot is listed among the images of its folder. */
  lemma SnapshotIsListedAsImage(folder: Path, now: Timestamp)
    ensures GetFileType(RawEntry(Combine(folder, SnapshotName(now)), false)) == Image
  {
    var stem := Combine(folder, Prefix + Stamp(now));
    if folder != "" {
      CombineAppend(folder, Prefix + Stamp(now), Suffix);
    }
    PngIsImage(stem);
  }

  /** Once a folder has been shown, no sequence of events makes taking a
      snapshot crash on the empty history. */
  lemma NoSnapshotCrashAfterFirstFolder(w: Window, events: seq<Event>, fs: FileSystem, now: Timestamp)
    requires Current(w.history).Some?
    ensures !TakePicture(Replay(w, events), fs, true, now).EmptyHistoryCrash?
  {
    ReplayRunsActions(w, events);
    RunKeepsAFolderShown(w.history, Actions(events));
  }

  /** Before any folder has been chosen the crash is reachable whenever the
      button is enabled, which the designer's initial path text decides. */
  lemma SnapshotCrashesBeforeFirstFolder(initialText: string, fs: FileSystem, now: Timestamp)
    ensures Opened(initialText).buttons.takePicture <==> initialText != ""
    ensures TakePicture(Opened(initialText), fs, true, now) == EmptyHistoryCrash
  {
  }
}

=== FILE: paths.dfy ===
/**
 A simple model of Windows paths and of the small part of the file system the
 application touches. A path is a string whose final segment follows the last
 `\` separator; everything before that separator is the parent directory.
 */
module Paths {
  import opened Wrappers

  type Path = string

  const Separator: char := '\\'

  /** No character of `s` from `lo` up to `hi` is `c`. */
  predicate NoneBetween(s: string, c: char, lo: int, hi: int)
    requires 0 <= lo <= hi <= |s|
  {
    forall j | lo <= j < hi :: s[j] != c
  }

  /** The position of the last `c` in `s` before `hi`, or -1 when there is none. */
  function LastIndexBefore(s: string, c: char, hi: nat): (i: int)
    requires hi <= |s|
    ensures -1 <= i < hi
    ensures i >= 0 ==> s[i] == c
    decreases hi
  {
    if hi == 0 || s[hi - 1] == c then hi - 1 else LastIndexBefore(s, c, hi - 1)
  }

  /** No `c` lies between the position found and `hi`. */
  lemma {:induction false} LastIndexBeforeIsLast(s: string, c: char, hi: nat)
    requires hi <= |s|
    ensures NoneBetween(s, c, LastIndexBefore(s, c, hi) + 1, hi)
    decreases hi
  {
    if hi > 0 && s[hi - 1] != c {
      LastIndexBeforeIsLast(s, c, hi - 1);
    }
  }

  /** The position of the last `c` in `s`, or -1 when `s` has none. */
  function LastIndexOf(s: string, c: char): (i: int)
    ensures -1 <= i < |s|
    ensures i >= 0 ==> s[i] == c
  {
    LastIndexBefore(s, c, |s|)
  }

  /** No `c` follows the last one. */
  lemma LastIndexOfIsLast(s: string, c: char)
    ensures NoneBetween(s, c, LastIndexOf(s, c) + 1, |s|)
  {
    LastIndexBeforeIsLast(s, c, |s|);
  }

  /** The position found is the only one that is a `c` with no `c` after it. */
  lemma LastIndexOfUnique(s: string, c: char, i: int)
    requires -1 <= i < |s|
    requires i >= 0 ==> s[i] == c
    requires NoneBetween(s, c, i + 1, |s|)
    ensures LastIndexOf(s, c) == i
  {
    LastIndexOfIsLast(s, c);
  }

  /** Appending text adds no earlier occurrence: the last `c` is in the appended
      part when it has one, and otherwise where it was. */
  lemma LastIndexOfAppend(s: string, e: string, c: char)
    ensures LastIndexOf(s + e, c) == if c in e then |s| + LastIndexOf(e, c) else LastIndexOf(s, c)
  {
    LastIndexOfIsLast(s, c);
    LastIndexOfIsLast(e, c);
    var i := if c in e then |s| + LastIndexOf(e, c) else LastIndexOf(s, c);
    forall j | i < j < |s + e|
      ensures (s + e)[j] != c
    {
      if j >= |s| {
        assert (s + e)[j] == e[j - |s|];
      }
    }
    LastIndexOfUnique(s + e, c, i);
  }

  /** Nothing after the last `c` is a `c`. */
  lemma NoneAfterLast(s: string, c: char)
    requires LastIndexOf(s, c) >= 0
    ensures c !in s[LastIndexOf(s, c) + 1..]
  {
    LastIndexOfIsLast(s, c);
    var i := LastIndexOf(s, c);
    var tail := s[i + 1..];
    forall k | 0 <= k < |tail|
      ensures tail[k] != c
    {
      assert tail[k] == s[i + 1 + k];
    }
  }

  /** Without a last `c` there is no `c` at all. */
  lemma NoneWithoutLast(s: string, c: char)
    requires LastIndexOf(s, c) < 0
    ensures c !in s
  {
    LastIndexOfIsLast(s, c);
  }

  /** Nothing after the last `c`, or in all of `s` when it has none, is a `c`. */
  lemma NoneAfterAnyLast(s: string, c: char)
    ensures c !in s[LastIndexOf(s, c) + 1..]
  {
    if LastIndexOf(s, c) >= 0 {
      NoneAfterLast(s, c);
    } else {
      NoneWithoutLast(s, c);
      assert s[0..] == s;
    }
  }

  /** `Path.GetFileName`: the final segment, the text after the last separator. */
  function FileName(p: Path): (name: string)
    ensures Separator !in name
    ensures |name| <= |p| && name == p[|p| - |name|..]
    ensures |name| < |p| ==> p[|p| - |name| - 1] == Separator
  {
    NoneAfterAnyLast(p, Separator);
    p[LastIndexOf(p, Separator) + 1..]
  }

  /** `Path.GetDirectoryName`: null for a null or empty path, empty when the path
      has no separator, and otherwise the text before the last separator. */
  function DirectoryName(p: Option<Path>): (r: Option<Path>)
    ensures p.None? || p.value == "" ==> r.None?
    ensures r.Some? && r.value != "" ==> Combine(r.value, FileName(p.value)) == p.value
    ensures p.Some? && p.value != "" && Separator !in p.value ==> r == Some("")
  {
    match p
    case None => None
    case Some(path) =>
      if path == "" then None
      else
        var i := LastIndexOf(path, Separator);
        if i < 0 then Some("")
        else
          assert path == path[..i] + [Separator] + path[i + 1..];
          Some(path[..i])
  }

  /** `Path.Combine` of a directory and a plain name. */
  function Combine(dir: Path, name: string): (r: Path)
    ensures dir == "" ==> r == name
    ensures dir != "" ==> |r| == |dir| + 1 + |name|
    ensures dir != "" ==> r[..|dir|] == dir && r[|dir|] == Separator && r[|dir| + 1..] == name
  {
    if dir == "" then name else dir + [Separator] + name
  }

  /** Appending to the name appends to the combined path. */
  lemma CombineAppend(dir: Path, name: string, suffix: string)
    requires dir != ""
    ensures Combine(dir, name + suffix) == Combine(dir, name) + suffix
  {
    assert dir + [Separator] + (name + suffix) == (dir + [Separator] + name) + suffix;
  }

  /** Combining a non-empty directory with a separator-free name builds a path
      whose parent is that directory and whose final segment is that name. */
  lemma CombineSplits(dir: Path, name: string)
    requires dir != "" && Separator !in name
    ensures FileName(Combine(dir, name)) == name
    ensures DirectoryName(Some(Combine(dir, name))) == Some(dir)
  {
    var p := Combine(dir, name);
    LastIndexOfAppend(dir + [Separator], name, Separator);
    LastIndexOfAppend(dir, [Separator], Separator);
    assert p[..|dir|] == dir;
  }

  /** The extension of a single segment: from its last `.` to its end, or
      empty when there is no `.` or the `.` is the last character. */
  function ExtensionOfName(name: string): (ext: string)
    ensures ext == "" || (|ext| >= 2 && ext[0] == '.' && '.' !in ext[1..])
    ensures |ext| <= |name| && ext == name[|name| - |ext|..]
  {
    var dot := LastIndexOf(name, '.');
    if dot < 0 || dot == |name| - 1 then ""
    else
      NoneAfterLast(name, '.');
      name[dot..]
  }

  /** A single segment up to its last `.`, or the whole segment when it has none. */
  function StemOfName(name: string): (stem: string)
    ensures '.' in name ==> |stem| < |name|
    ensures |stem| <= |name| && stem == name[..|stem|]
  {
    var dot := LastIndexOf(name, '.');
    if dot < 0 then
      NoneWithoutLast(name, '.');
      name
    else name[..dot]
  }

  /** `Path.GetExtension`: the extension of the final segment. */
  function Extension(p: Path): (ext: string)
    ensures ext == "" || (|ext| >= 2 && ext[0] == '.' && '.' !in ext[1..])
  {
    ExtensionOfName(FileName(p))
  }

  /** `Path.GetFileNameWithoutExtension`: the final segment up to its last `.`. */
  function Stem(p: Path): (stem: string)
    ensures '.' in FileName(p) ==> |stem| < |FileName(p)|
    ensures |stem| <= |FileName(p)| && stem == FileName(p)[..|stem|]
  {
    StemOfName(FileName(p))
  }

  /** The extension ends the whole path. */
  lemma ExtensionIsSuffix(p: Path)
    ensures |Extension(p)| <= |p| && p[|p| - |Extension(p)|..] == Extension(p)
  {
  }

  /** Within one segment, the stem and the extension put the name back together,
      except for a name that ends in `.`, whose extension is empty while the
      stem drops the dot. */
  lemma StemAndExtensionOfName(name: string)
    ensures if |name| > 0 && name[|name| - 1] == '.' then ExtensionOfName(name) == "" && name == StemOfName(name) + "."
      else name == StemOfName(name) + ExtensionOfName(name)
  {
    var dot := LastIndexOf(name, '.');
    if dot >= 0 {
      assert name == name[..dot] + name[dot..];
    }
  }

  /** The stem and the extension put the final segment back together, except for
      a name that ends in `.`, whose extension is empty while the stem drops the dot. */
  lemma StemAndExtension(p: Path)
    ensures var name := FileName(p);
      if |name| > 0 && name[|name| - 1] == '.' then Extension(p) == "" && name == Stem(p) + "."
      else name == Stem(p) + Extension(p)
  {
    StemAndExtensionOfName(FileName(p));
  }

  /** Appending separator-free text extends the final segment. */
  lemma FileNameOfAppend(s: Path, e: string)
    requires Separator !in e
    ensures FileName(s + e) == FileName(s) + e
  {
    LastIndexOfAppend(s, e, Separator);
    var k := LastIndexOf(s, Separator);
    assert (s + e)[k + 1..] == s[k + 1..] + e;
  }

  /** A suffix that starts with its only `.` is the extension of any segment it ends. */
  lemma ExtensionOfNameSuffix(name: string, ext: string)
    requires |ext| >= 2 && ext[0] == '.' && '.' !in ext[1..]
    ensures ExtensionOfName(name + ext) == ext
  {
    LastIndexOfAppend(name, ext, '.');
    assert NoneBetween(ext, '.', 1, |ext|) by {
      forall j | 1 <= j < |ext|
        ensures ext[j] != '.'
      {
        assert ext[1..][j - 1] == ext[j];
      }
    }
    LastIndexOfUnique(ext, '.', 0);
    assert (name + ext)[|name|..] == ext;
  }

  /** A separator-free suffix that starts with its only `.` is the extension of
      anything it ends. */
  lemma ExtensionOfSuffix(s: Path, ext: string)
    requires |ext| >= 2 && ext[0] == '.' && '.' !in ext[1..] && Separator !in ext
    ensures Extension(s + ext) == ext
  {
    FileNameOfAppend(s, ext);
    ExtensionOfNameSuffix(FileName(s), ext);
  }

  /** The part of the file system the application reads and writes: which paths
      are files and which are directories. */
  datatype FileSystem = FileSystem(files: set<Path>, dirs: set<Path>)

  /** Why `File.Move` throws an `IOException`. */
  datatype MoveError = TargetExists | IoFault

  datatype MoveResult = Moved(fs: FileSystem) | MoveFailed(error: MoveError)

  /** `File.Move` of an existing file: it fails when the target is another
      existing file or a directory, or when the device reports a fault
      (`ioFault`); otherwise the source path is replaced by the target path. */
  function Move(fs: FileSystem, source: Path, target: Path, ioFault: bool): (r: MoveResult)
    requires source in fs.files
    ensures r.Moved? <==> !ioFault && target !in fs.dirs && (target in fs.files ==> target == source)
    ensures r.Moved? ==> r.fs.dirs == fs.dirs && target in r.fs.files && (source != target ==> source !in r.fs.files)
    ensures r.Moved? ==> forall q :: q != source && q != target ==> (q in r.fs.files <==> q in fs.files)
  {
    if ioFault then MoveFailed(IoFault)
    else if target in fs.dirs || (target in fs.files && target != source) then MoveFailed(TargetExists)
    else Moved(fs.(files := fs.files - {source} + {target}))
  }
}

=== FILE: snapshot.dfy ===
/**
 The name under which a camera snapshot is saved: `selfie_`, the capture time
 in the custom format `yyyyMMddHHmmss`, and `.png`.
 */
module Snapshot {
  import opened Wrappers

  /** A calendar date and time of day, as `DateTime` holds it. */
  datatype DateTime = DateTime(year: int, month: int, day: int, hour: int, minute: int, second: int)

  predicate IsLeapYear(year: int) {
    year % 4 == 0 && (year % 100 != 0 || year % 400 == 0)
  }

  function DaysInMonth(year: int, month: int): int {
    if month == 2 then (if IsLeapYear(year) then 29 else 28)
    else if month == 4 || month == 6 || month == 9 || month == 11 then 30
    else 31
  }

  /** The values `DateTime` can represent: years 1 to 9999 and real calendar dates. */
  predicate ValidDateTime(t: DateTime) {
    && 1 <= t.year <= 9999
    && 1 <= t.month <= 12
    && 1 <= t.day <= DaysInMonth(t.year, t.month)
    && 0 <= t.hour < 24
    && 0 <= t.minute < 60
    && 0 <= t.second < 60
  }

  type Timestamp = t: DateTime | ValidDateTime(t) witness DateTime(1, 1, 1, 0, 0, 0)

  function Pow10(n: nat): (p: nat)
    ensures p >= 1
  {
    if n == 0 then 1 else 10 * Pow10(n - 1)
  }

  predicate IsDigit(c: char) {
    '0' <= c <= '9'
  }

  predicate AllDigits(s: string) {
    forall i | 0 <= i < |s| :: IsDigit(s[i])
  }

  /** The number a string of decimal digits spells. */
  function DigitsValue(s: string): (n: nat)
    requires AllDigits(s)
    ensures n < Pow10(|s|)
    decreases |s|
  {
    if |s| == 0 then 0
    else 10 * DigitsValue(s[..|s| - 1]) + (s[|s| - 1] as int - '0' as int)
  }

  /** `n` in decimal, padded with leading zeros to `width` digits, as a custom
      format specifier of `width` repeated letters prints it. */
  function Padded(n: nat, width: nat): (s: string)
    requires n < Pow10(width)
    ensures |s| == width && AllDigits(s)
    decreases width
  {
    if width == 0 then ""
    else Padded(n / 10, width - 1) + [('0' as int + n % 10) as char]
  }

  /** The padded digits spell the number they were made from. */
  lemma {:induction false} DigitsValueOfPadded(n: nat, width: nat)
    requires n < Pow10(width)
    ensures DigitsValue(Padded(n, width)) == n
    decreases width
  {
    if width > 0 {
      DigitsValueOfPadded(n / 10, width - 1);
      var s := Padded(n, width);
      assert s[..|s| - 1] == Padded(n / 10, width - 1);
    }
  }

  /** Padding is the only way to spell a value in a given number of digits. */
  lemma {:induction false} PaddedOfDigitsValue(s: string)
    requires AllDigits(s)
    ensures Padded(DigitsValue(s), |s|) == s
    decreases |s|
  {
    if |s| > 0 {
      var init := s[..|s| - 1];
      PaddedOfDigitsValue(init);
      var n := DigitsValue(s);
      assert n / 10 == DigitsValue(init);
      assert n % 10 == s[|s| - 1] as int - '0' as int;
      assert s == init + [s[|s| - 1]];
    }
  }

  lemma AllDigitsConcat(a: string, b: string)
    requires AllDigits(a) && AllDigits(b)
    ensures AllDigits(a + b)
  {
  }

  /** The fourteen digits `yyyyMMddHHmmss` print for a time stamp. */
  function Stamp(t: Timestamp): (digits: string)
    ensures |digits| == 14 && AllDigits(digits)
  {
    assert Pow10(2) == 100 && Pow10(4) == 10000;
    var y, mo, d := Padded(t.year, 4), Padded(t.month, 2), Padded(t.day, 2);
    var h, mi, se := Padded(t.hour, 2), Padded(t.minute, 2), Padded(t.second, 2);
    AllDigitsConcat(y, mo);
    AllDigitsConcat(y + mo, d);
    AllDigitsConcat(y + mo + d, h);
    AllDigitsConcat(y + mo + d + h, mi);
    AllDigitsConcat(y + mo + d + h + mi, se);
    y + mo + d + h + mi + se
  }

  /** The three parts of `a + b + c` can be sliced back out. */
  lemma SliceConcat3(a: string, b: string, c: string)
    ensures (a + b + c)[..|a|] == a
    ensures (a + b + c)[|a|..|a| + |b|] == b
    ensures (a + b + c)[|a| + |b|..] == c
  {
  }

  const Prefix: string := "selfie_"
  const Suffix: string := ".png"

  /** The snapshot file name for a capture at `now`. */
  function SnapshotName(now: Timestamp): (name: string)
    ensures |name| == 25
    ensures name[..7] == Prefix && name[21..] == Suffix
    ensures AllDigits(name[7..21])
  {
    SliceConcat3(Prefix, Stamp(now), Suffix);
    Prefix + Stamp(now) + Suffix
  }

  /** Reads a snapshot file name back into its capture time. */
  function ParseSnapshotName(name: string): Option<Timestamp> {
    if |name| == 25 && name[..7] == Prefix && name[21..] == Suffix && AllDigits(name[7..21]) then
      var d := name[7..21];
      var t := DateTime(DigitsValue(d[0..4]), DigitsValue(d[4..6]), DigitsValue(d[6..8]),
                        DigitsValue(d[8..10]), DigitsValue(d[10..12]), DigitsValue(d[12..14]));
      if ValidDateTime(t) then Some(t) else None
    else None
  }

  lemma AllDigitsSlice(s: string, lo: int, hi: int)
    requires AllDigits(s) && 0 <= lo <= hi <= |s|
    ensures AllDigits(s[lo..hi])
  {
  }

  /** Six fields of the given widths can be sliced back out of their concatenation. */
  lemma SliceSix(a: string, b: string, c: string, d: string, e: string, f: string)
    requires |a| == 4 && |b| == 2 && |c| == 2 && |d| == 2 && |e| == 2 && |f| == 2
    ensures var s := a + b + c + d + e + f;
      s[0..4] == a && s[4..6] == b && s[6..8] == c && s[8..10] == d && s[10..12] == e && s[12..14] == f
  {
  }

  /** Fourteen characters are the concatenation of their six fields. */
  lemma JoinSix(s: string)
    requires |s| == 14
    ensures s == s[0..4] + s[4..6] + s[6..8] + s[8..10] + s[10..12] + s[12..14]
  {
  }

  /** Where each field sits in the fourteen digits. */
  lemma StampParts(t: Timestamp)
    ensures Pow10(2) == 100 && Pow10(4) == 10000
    ensures Stamp(t)[0..4] == Padded(t.year, 4)
    ensures Stamp(t)[4..6] == Padded(t.month, 2)
    ensures Stamp(t)[6..8] == Padded(t.day, 2)
    ensures Stamp(t)[8..10] == Padded(t.hour, 2)
    ensures Stamp(t)[10..12] == Padded(t.minute, 2)
    ensures Stamp(t)[12..14] == Padded(t.second, 2)
  {
  }

  /** Every capture time can be read back from its file name. */
  lemma ParseSnapshotNameInvertsName(now: Timestamp)
    ensures ParseSnapshotName(SnapshotName(now)) == Some(now)
  {
    assert Pow10(2) == 100 && Pow10(4) == 10000;
    SliceConcat3(Prefix, Stamp(now), Suffix);
    StampParts(now);
    DigitsValueOfPadded(now.year, 4);
    DigitsValueOfPadded(now.month, 2);
    DigitsValueOfPadded(now.day, 2);
    DigitsValueOfPadded(now.hour, 2);
    DigitsValueOfPadded(now.minute, 2);
    DigitsValueOfPadded(now.second, 2);
  }

  /** A file name that reads as a capture time is the name of that capture, so
      distinct names never stand for the same time. */
  lemma SnapshotNameInvertsParse(name: string, t: Timestamp)
    requires ParseSnapshotName(name) == Some(t)
    ensures SnapshotName(t) == name
  {
    var d := name[7..21];
    ParsedParts(name, t);
    StampOfDigits(d, t);
    SplitThree(name, 7, 21);
  }

  /** What a successful parse has checked: the prefix, fourteen digits, the
      suffix, and the time read field by field from the digits. */
  lemma ParsedParts(name: string, t: Timestamp)
    requires ParseSnapshotName(name) == Some(t)
    ensures |name| == 25 && name[..7] == Prefix && name[21..] == Suffix
    ensures var d := name[7..21];
      && AllDigits(d)
      && t == DateTime(DigitsValue(d[0..4]), DigitsValue(d[4..6]), DigitsValue(d[6..8]),
                       DigitsValue(d[8..10]), DigitsValue(d[10..12]), DigitsValue(d[12..14]))
  {
  }

  /** A string is its three slices at two cut points, joined. */
  lemma SplitThree(s: string, i: nat, j: nat)
    requires i <= j <= |s|
    ensures s == s[..i] + s[i..j] + s[j..]
  {
  }

  /** Fourteen digits read field by field as a time stamp print back as themselves. */
  lemma StampOfDigits(d: string, t: Timestamp)
    requires |d| == 14 && AllDigits(d)
    requires t == DateTime(DigitsValue(d[0..4]), DigitsValue(d[4..6]), DigitsValue(d[6..8]),
                           DigitsValue(d[8..10]), DigitsValue(d[10..12]), DigitsValue(d[12..14]))
    ensures Stamp(t) == d
  {
    AllDigitsSlice(d, 0, 4);
    AllDigitsSlice(d, 4, 6);
    AllDigitsSlice(d, 6, 8);
    AllDigitsSlice(d, 8, 10);
    AllDigitsSlice(d, 10, 12);
    AllDigitsSlice(d, 12, 14);
    PaddedOfDigitsValue(d[0..4]);
    PaddedOfDigitsValue(d[4..6]);
    PaddedOfDigitsValue(d[6..8]);
    PaddedOfDigitsValue(d[8..10]);
    PaddedOfDigitsValue(d[10..12]);
    PaddedOfDigitsValue(d[12..14]);
    JoinSix(d);
    StampParts(t);
    JoinSix(Stamp(t));
  }

}

=== FILE: text.dfy ===
/**
 The string operations the application relies on: `char.IsWhiteSpace`,
 `string.Trim`, `string.IsNullOrWhiteSpace` and ordinal, case-insensitive
 comparison of ASCII text.
 */
module Text {

  /** The characters .NET's `char.IsWhiteSpace` accepts: the separators of
      Unicode categories Zs, Zl and Zp, the controls U+0009 to U+000D, and U+0085. */
  predicate IsWhiteSpace(c: char) {
    || ('\U{0009}' <= c <= '\U{000D}')
    || c == ' '
    || c == '\U{0085}'
    || c == '\U{00A0}'
    || c == '\U{1680}'
    || ('\U{2000}' <= c <= '\U{200A}')
    || c == '\U{2028}'
    || c == '\U{2029}'
    || c == '\U{202F}'
    || c == '\U{205F}'
    || c == '\U{3000}'
  }

  /** Every character of `s` from `lo` up to `hi` is white space. */
  predicate WhiteSpaceBetween(s: string, lo: int, hi: int)
    requires 0 <= lo <= hi <= |s|
  {
    forall i | lo <= i < hi :: IsWhiteSpace(s[i])
  }

  /** `string.IsNullOrWhiteSpace` for a non-null string: empty or only white space. */
  predicate AllWhiteSpace(s: string) {
    WhiteSpaceBetween(s, 0, |s|)
  }

  /** The first position at or after `from` that is not white space, or `|s|`. */
  function SkipWhiteSpace(s: string, from: nat): (i: nat)
    requires from <= |s|
    ensures from <= i <= |s|
    ensures WhiteSpaceBetween(s, from, i)
    ensures i < |s| ==> !IsWhiteSpace(s[i])
    decreases |s| - from
  {
    if from == |s| || !IsWhiteSpace(s[from]) then from else SkipWhiteSpace(s, from + 1)
  }

  /** Moving back from `hi`, but not below `lo`, the first position after a
      character that is not white space, or `lo`. */
  function SkipWhiteSpaceBack(s: string, lo: nat, hi: nat): (j: nat)
    requires lo <= hi <= |s|
    ensures lo <= j <= hi
    ensures WhiteSpaceBetween(s, j, hi)
    ensures j > lo ==> !IsWhiteSpace(s[j - 1])
    decreases hi
  {
    if hi == lo || !IsWhiteSpace(s[hi - 1]) then hi else SkipWhiteSpaceBack(s, lo, hi - 1)
  }

  /** A string is its first `k` characters followed by the rest. */
  lemma PrefixThenRest(s: string, k: nat)
    requires k <= |s|
    ensures s[..k] + s[k..] == s
  {
  }

  /** `string.Trim`: the infix of `s` left after white space is removed from both ends.
      It is empty exactly when `s` is nothing but white space. */
  function Trim(s: string): (r: string)
    ensures exists i | 0 <= i <= |s| - |r| :: r == s[i..i + |r|] && WhiteSpaceBetween(s, 0, i) && WhiteSpaceBetween(s, i + |r|, |s|)
    ensures r == [] || (!IsWhiteSpace(r[0]) && !IsWhiteSpace(r[|r| - 1]))
    ensures r == [] <==> AllWhiteSpace(s)
  {
    var i := SkipWhiteSpace(s, 0);
    var j := SkipWhiteSpaceBack(s, i, |s|);
    assert i < j ==> s[i..j][0] == s[i] && s[i..j][j - i - 1] == s[j - 1];
    s[i..j]
  }

  /** Trimming twice is trimming once. */
  lemma TrimIdempotent(s: string)
    ensures Trim(Trim(s)) == Trim(s)
  {
  }

  /** ASCII upper-case letters become lower case; every other character is kept. */
  function LowerChar(c: char): (d: char)
    ensures 'A' <= c <= 'Z' ==> 'a' <= d <= 'z'
    ensures !('A' <= c <= 'Z') ==> d == c
  {
    if 'A' <= c <= 'Z' then (c as int - 'A' as int + 'a' as int) as char else c
  }

  /** `string.ToLower`, restricted to ASCII case mapping. */
  function Lower(s: string): (r: string)
    ensures |r| == |s|
    ensures forall i :: 0 <= i < |s| ==> r[i] == LowerChar(s[i])
  {
    seq(|s|, i requires 0 <= i < |s| => LowerChar(s[i]))
  }

  /** `StringComparer.OrdinalIgnoreCase` equality, restricted to ASCII case mapping. */
  predicate EqualsIgnoreCase(a: string, b: string) {
    |a| == |b| && forall i | 0 <= i < |a| :: LowerChar(a[i]) == LowerChar(b[i])
  }

  /** Case-insensitive equality is equality after lower-casing. */
  lemma EqualsIgnoreCaseIsLowerEqual(a: string, b: string)
    ensures EqualsIgnoreCase(a, b) <==> Lower(a) == Lower(b)
  {
  }

  /** `Contains` with a case-insensitive comparer. */
  predicate ContainsIgnoreCase(candidates: seq<string>, x: string)
    decreases |candidates|
  {
    |candidates| > 0 && (EqualsIgnoreCase(x, candidates[0]) || ContainsIgnoreCase(candidates[1..], x))
  }

  /** `ContainsIgnoreCase` holds exactly when some candidate equals `x`, ignoring case. */
  lemma {:induction false} ContainsIgnoreCaseIff(candidates: seq<string>, x: string)
    ensures ContainsIgnoreCase(candidates, x) <==> exists e | e in candidates :: EqualsIgnoreCase(x, e)
    decreases |candidates|
  {
    if |candidates| > 0 {
      ContainsIgnoreCaseIff(candidates[1..], x);
      assert forall e | e in candidates[1..] :: e in candidates;
      if exists e | e in candidates :: EqualsIgnoreCase(x, e) {
        var e :| e in candidates && EqualsIgnoreCase(x, e);
        if e != candidates[0] {
          assert e in candidates[1..];
        }
      }
    }
  }
}

=== FILE: wrappers.dfy ===
/** Optional values, standing for the nullable references of the application. */
module Wrappers {

  /** `None` plays the part of `null`. */
  datatype Option<+T> = None | Some(value: T)
}
